=== FILE: README.md ===
# flex-code core, modelled in Dafny

flex-code is an event-staffing platform. Organizers create events and post jobs. Workers
apply, get accepted, check in and out, and talk in group chats. This project models the
rules beneath the HTTP and UI plumbing. Database collections become sequences and maps,
and errors become results that carry the HTTP status.

The modules:

- `Matching` is the job match scorer. It has four additive factors: skills (60), distance
  (20), experience (10) and rating (10). The sum is rounded and capped at 100, and the jobs
  come back sorted by descending score. Ties keep their input order.
- `Applications` covers the application lifecycle:
  - apply creates a pending application;
  - the job's organizer accepts it, and a reminder may be scheduled;
  - check-in and check-out stamps are recorded;
  - the first check-out that balances the check-ins computes the hours worked and
    completes the application.
- `GroupChat` covers group creation, messages with their notification preview, and
  membership changes by the owner. Every operation keeps the owner among the
  participants.
- `EventModel` and `Events` cover the Event schema with its defaults and validators, and
  the event controller:
  - organizer-scoped mutations;
  - the expense and revenue folds;
  - the active-event listing;
  - the worker roster of an event, with per-worker hours and distinct events.
- `ProfileModel` and `Profiles` cover the Profile schema, section editing, the profile
  upsert (at most one profile per user) and the talent search.
- `EventCreate`, `WorkerDashboard`, `OrganizerDashboard` and `Distance` cover the client:
  - the event cost estimator and its submit checks;
  - the job search filter chain;
  - the job status counters;
  - the distance label.
- `Wrappers`, `Text`, `Seqs`, `Sorting` and `Numbers` stand for the JavaScript library
  calls the code uses: `trim`, `toLowerCase`, `includes`, `split`, `filter`, `map`, the
  stable `sort` and `Math.round`.

Notes on the code:

- `calculateMatchScores` adds four factors: skills, distance, experience and rating.
  There is no availability, recency or reliability factor.
- Profile.js has no `ratingAvg`, so the rating factor of a real profile is 0. The model
  keeps the field optional so that the factor is stated anyway.
- `updateEvent` runs no validators, so it can store an event that a later `save` rejects.
  The model says so: `UpdateEvent` stores any patch, and `AddExpense` then answers 500.

Modelling choices:

- Great-circle distance is a function parameter. A missing coordinate is `None`, which
  stands for NaN.
- Parsing (`parseFloat`, `Number`, `new Date`) is also a function parameter, returning an
  `Option`.
- Clocks are `now` parameters.
- Notifications and reminders are returned as values instead of being sent.

## Model

| member | source | states |
|---|---|---|
| Matching.MatchingSkills | backend/src/utils/matchingAlgorithm.js:16-21 | a required skill is kept iff some user skill contains it or is contained in it, case-insensitively; never more than the required skills |
| Matching.SkillScoreBounds | backend/src/utils/matchingAlgorithm.js:14-23 | the skill factor times the number of required skills is 60 times the number matched; it lies in [0,60] and is 0 when either list is empty |
| Matching.SkillScoreFull | backend/src/utils/matchingAlgorithm.js:15-22 | the skill factor is the full 60 iff every required skill is matched |
| Matching.DistanceScore | backend/src/utils/matchingAlgorithm.js:25-36 | 20 iff d <= 10, 15 iff 10 < d <= 25, 10 iff 25 < d <= 50, 0 iff beyond 50 or no distance (missing location or coordinate) |
| Matching.ExperienceScore | backend/src/utils/matchingAlgorithm.js:38-43 | 10 iff both fields are non-empty and the lower-cased experience contains the lower-cased level, else 0 |
| Matching.RatingScore | backend/src/utils/matchingAlgorithm.js:45-47 | 10 iff rating >= 4, 5 iff 3 <= rating < 4, 0 iff lower or absent |
| Matching.MatchScoreBounds | backend/src/utils/matchingAlgorithm.js:49-52 | every score is an integer in [0,100], and the cap at 100 never changes the rounded sum |
| Matching.ScoreAll | backend/src/utils/matchingAlgorithm.js:10-52 | one scored entry per job, in input order, each carrying that job's score |
| Matching.CalculateMatchScores | backend/src/utils/matchingAlgorithm.js:3-58 | without a profile, or when the lookup fails, the input list comes back untouched; with one, a ranking of the same length |
| Matching.RankJobs | backend/src/utils/matchingAlgorithm.js:53 | the ranking is what the scorer returns for a found profile |
| Matching.RankedContents | backend/src/utils/matchingAlgorithm.js:10-53 | the ranking is a permutation of the scored input, and every entry carries its own job's score in [0,100] |
| Matching.RankedDescending | backend/src/utils/matchingAlgorithm.js:53 | scores never increase along the ranking |
| Matching.RankedStable | backend/src/utils/matchingAlgorithm.js:53 | jobs with equal scores appear in the ranking in input order |
| Numbers.Round | backend/src/utils/matchingAlgorithm.js:51 | `Math.round` gives the integer r with r <= x + 0.5 < r + 1 |
| Sorting.SortBy | backend/src/utils/matchingAlgorithm.js:53 | the stable sort returns a permutation of its input, ordered by the key |
| Sorting.SortStable | backend/src/utils/matchingAlgorithm.js:53 | among elements with equal keys the sort keeps the input order |
| Applications.ApplyCheck | backend/src/controllers/applicationController.js:12-29 | 404 iff the job is missing; 400 iff it is not open or the worker already applied; 201 iff open and not yet applied |
| Applications.Board.ApplyToJob | backend/src/controllers/applicationController.js:6-53 | on failure nothing changes; on success exactly one pending application and one pending applicant entry are appended, and there is still at most one application per (job, worker) |
| Applications.ReminderDelay | backend/src/controllers/applicationController.js:84-89 | a reminder exists iff the job starts more than 24 h from now, and its delay is positive and ends 24 h before the start |
| Applications.Board.AcceptApplication | backend/src/controllers/applicationController.js:67-95 | 404 for an unknown application, 500 when its job is gone, 403 for anyone but the job's organizer, and 200 iff none of these holds; on 200 exactly that application becomes accepted, whatever its status was, and the reminder delay is returned; otherwise nothing changes |
| Applications.Times | backend/src/controllers/applicationController.js:119-120 | the timestamps of exactly the stamps of that type, in stamp order and with repeats: the filter of the stamps by type, read by timestamp |
| Applications.SumHours | backend/src/controllers/applicationController.js:122-128 | the accumulation loop computes the paired hours: sum of (i-th check-out - i-th check-in) / 3,600,000 |
| Applications.PairedHoursTotals | backend/src/controllers/applicationController.js:123-127 | the paired hours equal (sum of check-outs - sum of check-ins) / 3,600,000 |
| Applications.PairedHoursNonNegative | backend/src/controllers/applicationController.js:123-127 | when each check-out is no earlier than its check-in, the hours are not negative |
| Applications.RecordStamp | backend/src/controllers/applicationController.js:111-130 | exactly one stamp is appended; status and hours change only on a balancing check-out, which sets the paired hours and completes the application |
| Applications.CheckInCounts | backend/src/controllers/applicationController.js:111-118 | a check-in adds exactly one check-in time and no check-out time |
| Applications.FindAccepted | backend/src/controllers/applicationController.js:101-105 | finds an accepted application for (job, worker) iff one exists |
| Applications.Board.CheckIn | backend/src/controllers/applicationController.js:97-142 | 404 and no change without an accepted application; otherwise only that application gets the stamp, and `completed` reports the completion |
| Applications.StampAccepted | backend/src/controllers/applicationController.js:111-133 | on an accepted application, pushing the stamp, the balance test and the accumulation loop give exactly RecordStamp, and `completed` holds iff the stamp completed the application |
| Applications.CompletedIsFinal | backend/src/controllers/applicationController.js:101-129 | while an application is completed, no accepted application exists for its (job, worker), so a check-in for it is answered 404 |
| Applications.ReacceptReopens | backend/src/controllers/applicationController.js:77-82 | accepting does not look at the status: accepting a completed application again makes it the accepted one, so check-ins are taken again |
| GroupChat.Preview | backend/src/controllers/groupChatController.js:143 | the first 50 characters of the text, followed by "..." iff it is longer than 50 |
| GroupChat.OtherParticipants | backend/src/controllers/groupChatController.js:135-137 | exactly the participants other than the sender |
| GroupChat.NewMembers | backend/src/controllers/groupChatController.js:183 | exactly the requested ids that are not participants yet |
| GroupChat.CreateCheck | backend/src/controllers/groupChatController.js:8-28 | blank name, then missing event id, then no participants (each 400 with its message), then missing event (404), then a caller who is not the organizer (403); 201 iff all pass |
| GroupChat.CreateGroup | backend/src/controllers/groupChatController.js:4-49 | on success participants = [creator] ++ given list with no de-duplication, the owner is the creator, the name is trimmed, and there is exactly one system message |
| GroupChat.Access | backend/src/controllers/groupChatController.js:68-87 | 200 iff the group exists and the caller is a participant; 403 for an existing group and a non-member |
| GroupChat.SendGroupMessage | backend/src/controllers/groupChatController.js:89-161 | rejects blank text (400), a missing group (404) and non-members (403) with no change; 200 iff none of these holds, and then exactly one message read by its sender is appended, lastMessage is set, and every other participant is notified with the title "New message in " plus the group name and the preview; the message kind defaults to "text" |
| GroupChat.AddMembers | backend/src/controllers/groupChatController.js:163-235 | 400 without ids, 404 without a group, 403 for anyone but the owner, 400 when no id is new, each with no change; 200 iff none of these holds, and then exactly the new ids and one system message naming the added users are appended, each new member is notified, and the owner stays a member |
| GroupChat.RemovedName | backend/src/controllers/groupChatController.js:255-262 | "A member" when the id is not a participant; the member's name when there is one |
| GroupChat.RemoveMember | backend/src/controllers/groupChatController.js:237-296 | 404 without a group, 403 for anyone but the owner, 400 for the owner themself, each with no change; 200 iff none of these holds, and then every entry with that id is dropped and one system message is appended; the owner stays a member |
| GroupChat.LeaveGroup | backend/src/controllers/groupChatController.js:298-337 | 404 without a group, 400 for the owner, with no change; 200 iff the group exists and the caller is not its owner, and then exactly the caller is removed and one system message is appended |
| GroupChat.TransferOwnership | backend/src/controllers/groupChatController.js:339-407 | 400 without a target, 404 without a group, 403 for anyone but the owner, 400 for a target who is not a member, each with no change; 200 iff none of these holds, and then the owner becomes the target, the participants stay unchanged and one system message is appended |
| EventModel.TicketsWithDefaults | backend/src/models/Event.js:52-66 | a body without a tickets object gets zero tickets dispersed, zero sold and price 0 |
| EventModel.NewEvent | backend/src/models/Event.js:3-83 | creation succeeds iff both dates are given, the end is strictly after the start, title and description are present, the status is in the enumeration and the ticket rules hold; the stored event then satisfies every validator, belongs to the caller, keeps the body's expenses (with fresh ids), call fields and revenue (an explicit null included), and takes the defaults for the rest |
| EventModel.DefaultsOfNewEvent | backend/src/models/Event.js:41-80 | a body without optional fields gives status upcoming, zero tickets, revenue and estimated profit 0, no expenses and no video call |
| Events.ApplyPatch | backend/src/controllers/eventController.js:42-46 | an empty patch changes nothing; a patch without expenses or tickets keeps them; every expense after the patch is an old one or carries one of the fresh ids the patch consumed |
| Events.EventStore.CreateEvent | backend/src/controllers/eventController.js:6-16 | the new event belongs to the caller whatever the body says, under a fresh id, with the body's expenses under the next fresh ids; a failed creation changes nothing |
| Events.EventStore.UpdateEvent | backend/src/controllers/eventController.js:40-54 | 404 with no change unless the caller owns the event; 200 iff owned, and then the patch is applied without validation, any schema path included |
| Events.EventStore.Save | backend/src/controllers/eventController.js:161 | a save stores the edited event iff it passes the validators, else 500 and no change |
| Events.EventStore.UpdateTickets | backend/src/controllers/eventController.js:149-167 | 404 unless owned; 500 with no change iff the edited event breaks a validator; 200 iff owned and valid, and then the tickets are replaced and revenue = totalSold x pricePerTicket |
| Events.EventStore.AddExpense | backend/src/controllers/eventController.js:169-186 | 404 unless owned; 500 with no change iff the event fails validation; 200 iff owned and valid, and then exactly one expense is appended under an id no expense of the event had, and the id lookup finds it at the end |
| Events.ExpenseIndex | backend/src/controllers/eventController.js:197 | finds the position of an expense id iff one exists |
| Events.ExpenseIndexAppended | backend/src/controllers/eventController.js:179-197 | an expense appended under an id above every old one is what the id lookup finds, at the end |
| Events.EventStore.DeleteExpense | backend/src/controllers/eventController.js:188-204 | 404 unless owned; 500 with no change iff the expense id is unknown or the event fails validation; 200 iff neither, and then exactly that expense is removed |
| Events.EventStore.StartVideoCall | backend/src/controllers/eventController.js:95-112 | 404 unless owned; 500 with no change iff the save fails validation; 200 iff owned and valid, and then the call is marked active with an id made of the event id and the start time |
| Events.EventStore.EndVideoCall | backend/src/controllers/eventController.js:114-131 | 404 unless owned; 500 with no change iff the save fails validation; 200 iff owned and valid, and then the call is marked inactive and its id cleared |
| Events.SumWith | backend/src/controllers/eventController.js:179-215 | adding an expense raises the expense total by its amount |
| Events.SumWithout | backend/src/controllers/eventController.js:197-215 | removing an expense lowers the expense total by its amount |
| Events.GetFinancials | backend/src/controllers/eventController.js:206-228 | 404 unless owned; totalExpenses is the sum of the amounts, and profit + totalExpenses = revenue, with a null revenue giving profit = -totalExpenses |
| Events.SummaryProfit | backend/src/controllers/eventController.js:234-240 | the summed profit equals the summed revenue minus the summed expenses |
| Events.SummaryStep | backend/src/controllers/eventController.js:234-240 | each event adds its expense total, its revenue with a missing revenue counted as 0, and its getFinancials profit |
| Events.GetFinancialSummary | backend/src/controllers/eventController.js:230-246 | the summary is the fold over exactly the caller's events, so it is all zeros when the caller has none, and totalProfit = totalRevenue - totalExpenses |
| Events.GetActiveEvents | backend/src/controllers/eventController.js:56-66 | exactly the events with dateStart <= now <= dateEnd, each as often as stored, by ascending start |
| Events.JobHires | backend/src/controllers/eventController.js:298-305 | one entry per hire of a job, tagged with the job's title, in order |
| Events.DedupIds | backend/src/controllers/eventController.js:294-307 | a worker is on the roster iff some job hired them |
| Events.DedupFirstHire | backend/src/controllers/eventController.js:297-306 | each roster entry is its worker's first hire, carrying that job's title |
| Events.DedupOrder | backend/src/controllers/eventController.js:297-307 | the roster is ordered by first hire |
| Events.CollectWorkers | backend/src/controllers/eventController.js:294-307 | the nested loop builds exactly the de-duplicated roster, and the id set is its set of worker ids |
| Events.CollectJob | backend/src/controllers/eventController.js:298-306 | the inner loop over one job's hires extends the roster to the de-duplicated roster of everything walked so far, and keeps the id set equal to its worker ids |
| Events.EventIdsBound | backend/src/controllers/eventController.js:318 | a worker has no more distinct events than sessions, and at least one when there is a session |
| Events.Round2 | backend/src/controllers/eventController.js:324 | rounding to two decimals moves the hours by at most half a hundredth |
| Events.Summarize | backend/src/controllers/eventController.js:315-326 | a worker's totalEvents counts the distinct events of their sessions, totalHours is their summed hours rounded to 2 decimals, and the badge is computed from the unrounded hours and that count |
| Events.GetEventWorkers | backend/src/controllers/eventController.js:285-336 | one summary per roster entry, in roster order; totalWorkers is the list length; each worker's totalEvents is the number of distinct events of their checked-out sessions, and totalHours the summed hours of those sessions rounded to 2 decimals |
| ProfileModel.SchemaEmptyProfile | backend/src/models/Profile.js:3-60 | a new document as the schema builds it: valid, availability flexible, and no section arrays |
| ProfileModel.EmptyProfile | backend/src/models/Profile.js:37-41 | a new document is valid, with availability flexible and the four section arrays empty |
| ProfileModel.IndexOfUser | backend/src/controllers/profileController.js:8 | finds the profile of a user iff there is one |
| ProfileModel.OneProfilePerUser | backend/src/models/Profile.js:4-9 | under the unique index, a user's profile is the only one with that userId |
| Profiles.ItemIndex | backend/src/controllers/profileController.js:16 | finds the first item with the id iff one exists |
| Profiles.Merge | backend/src/controllers/profileController.js:18 | the body's fields win, the item's other fields stay, and the id is kept |
| Profiles.Pull | backend/src/controllers/profileController.js:21 | removes every item with the id and keeps the rest in order; removing an absent id changes nothing |
| Profiles.EditSection | backend/src/controllers/profileController.js:11-25 | "Invalid action" for an unknown action; add appends exactly one item; update with an absent id raises "Item not found", otherwise merges into that one item; delete pulls the id and never fails; no other section changes |
| Profiles.EditKeepsIdsBelow | backend/src/controllers/profileController.js:12-14 | every item id stays below the next fresh id, so an added item's id is new |
| Profiles.SchemaProfileCannotBeEdited | backend/src/models/Profile.js:3-60 | a profile built by the schema as written has no section arrays, so every section edit fails |
| Profiles.DeclaredSectionTakesAdd | backend/src/controllers/profileController.js:12-14 | with the section arrays declared, an add to a new profile succeeds and leaves exactly that item |
| Profiles.ProfileStore.ManageProfileSection | backend/src/controllers/profileController.js:7-29 | "Profile not found" iff the caller has no profile, before any change; otherwise the edit above is applied to that profile only |
| Profiles.Assign | backend/src/controllers/profileController.js:37-43 | the body's fields override, a body userId included; the sections are untouched |
| Profiles.ProfileStore.CreateOrUpdateProfile | backend/src/controllers/profileController.js:32-50 | merges into the caller's profile or appends a new one; rejects (500 "Error updating profile", no change) a result that breaks a validator or the unique index, so there is never more than one profile per user; succeeds iff the merged profile is valid and its userId belongs to no other stored profile |
| Profiles.Take | backend/src/controllers/profileController.js:134 | `limit(n)` keeps the prefix of length min(length, n) |
| Profiles.SearchTalent | backend/src/controllers/profileController.js:113-143 | 500 "Error searching talent" iff a minimum rating is given and is not a number; otherwise at most 50 profiles, in stored order; each matches any of the comma-separated skills and the city and availability, and has an existing user with the minimum rating; when at most 50 profiles match the filter, every one whose user also matches is returned |
| Text.Trim | backend/src/controllers/groupChatController.js:8 | `trim` drops exactly the leading and trailing white space: the result is a contiguous slice, everything around it is white space, it has no white space at either end, and it is empty iff the string is blank |
| Text.Split | backend/src/controllers/profileController.js:119 | `split(',')` yields at least one piece, none containing a comma |
| Text.JoinSplit | backend/src/controllers/profileController.js:119 | joining the pieces with the separator gives back the string |
| EventCreate.ExpenseEditor.AddExpense | frontend/src/pages/EventCreate.jsx:34-41 | an empty category or amount leaves everything unchanged; otherwise exactly one expense, with the amount parsed, is appended and the draft is cleared |
| EventCreate.Without | frontend/src/pages/EventCreate.jsx:44 | drops exactly the entry at the index and keeps the others in order; an out-of-range index changes nothing |
| EventCreate.ExpenseEditor.RemoveExpense | frontend/src/pages/EventCreate.jsx:43-45 | the list loses exactly the indexed entry and the draft is kept |
| EventCreate.TotalEstimated | frontend/src/pages/EventCreate.jsx:50 | the sum is NaN iff some planned amount is NaN |
| EventCreate.EstimatedProfit | frontend/src/pages/EventCreate.jsx:48-51 | profit + worker cost + planned expenses = ticket revenue whenever the total is a number |
| EventCreate.UnparsedInputsCountZero | frontend/src/pages/EventCreate.jsx:48-49 | an unparsable ticket count or worker cost counts as 0 |
| EventCreate.AddLowersProfit | frontend/src/pages/EventCreate.jsx:39-51 | adding a planned expense lowers the profit by its amount |
| EventCreate.RemoveLowersTotal | frontend/src/pages/EventCreate.jsx:43-50 | removing a planned expense lowers the total by its amount |
| EventCreate.Submit | frontend/src/pages/EventCreate.jsx:53-107 | checks title, description, both dates, start before end (an invalid date passes) and location, in that order, and reports the first failure; answers "Event location is required" iff the first four checks pass and no location is set; posts iff all pass, with trimmed text, the dates as entered, tickets.totalSold = 0, the parsed ticket and worker-cost numbers (0 when unparsable) and the expense list |
| WorkerDashboard.FirstSteps | frontend/src/pages/WorkerDashboard.jsx:43-55 | the query and location steps keep exactly the jobs whose title or description, and whose city, contain the lower-cased needle |
| WorkerDashboard.MiddleSteps | frontend/src/pages/WorkerDashboard.jsx:57-63 | the two pay steps keep exactly the jobs with a pay within the parsed bounds, both inclusive; a bound that does not parse keeps nothing |
| WorkerDashboard.LastSteps | frontend/src/pages/WorkerDashboard.jsx:65-77 | status "all" disables the status filter; a skill filter keeps a job iff some filter skill is a case-insensitive substring of some required skill |
| WorkerDashboard.SearchIsOneFilter | frontend/src/pages/WorkerDashboard.jsx:41-79 | the chain of filters equals one filter by the conjunction of the filters that are set |
| WorkerDashboard.SearchResult | frontend/src/pages/WorkerDashboard.jsx:41-79 | the result is a subsequence of the jobs, holding exactly the jobs every set filter accepts |
| WorkerDashboard.ResetIsNeutralSearch | frontend/src/pages/WorkerDashboard.jsx:82-84 | reset restores the full list, which is what a search with no filter set shows |
| OrganizerDashboard.CountStatus | frontend/src/pages/OrganizerDashboard.jsx:25-27 | a status count never exceeds the number of jobs |
| OrganizerDashboard.CountStatusStep | frontend/src/pages/OrganizerDashboard.jsx:25-27 | a counter counts exactly the jobs with its status |
| OrganizerDashboard.StatsOf | frontend/src/pages/OrganizerDashboard.jsx:24-28 | total is the number of jobs, and each counter counts its status |
| OrganizerDashboard.CountersWithinTotal | frontend/src/pages/OrganizerDashboard.jsx:24-27 | open + inProgress + completed <= total |
| OrganizerDashboard.FetchJobs | frontend/src/pages/OrganizerDashboard.jsx:19-35 | on a fetch error the list becomes empty and the stats keep their previous values; otherwise the stats are those of the list |
| Distance.FormatDistance | frontend/src/utils/distance.js:17-25 | metres iff d < 1, one-decimal km iff 1 <= d < 10, rounded km iff d >= 10, and the NaN label iff there is no distance; the numbers are the rounded ones |
| Distance.MetresRange | frontend/src/utils/distance.js:18-19 | below 1 km the label is 0 to 1000 metres, and just below 1 km it reads 1000 m |
| Distance.GetRelativeDistance | frontend/src/utils/distance.js:51-65 | no label iff the job has no coordinates or there is no user location; coordinates are read [lon, lat] and passed as (userLat, userLon, jobLat, jobLon); fewer than two coordinates give the NaN label |

## Findings

| source | as written | input that shows it | evidently intended | confidence | as-written member | corrected member |
|---|---|---|---|---|---|---|
| backend/src/models/Profile.js:3-60 | the schema declares none of `workExperience`, `education`, `portfolio`, `certifications`, so `profile[section]` is undefined in `manageProfileSection` and every push, `id` or `pull` throws | any `POST` to add work experience for a user who has a profile: the answer is 500 | the four section arrays declared, each starting empty | not executed; high | Profiles.SchemaProfileCannotBeEdited | Profiles.DeclaredSectionTakesAdd |

The rest of the model creates profiles with `ProfileModel.EmptyProfile`, which has the
four sections. `EditSection` still answers 500 for a section a document lacks.

## Left out

- Great-circle distance (the Haversine trigonometry in matchingAlgorithm.js and distance.js) is a function parameter; floating-point error is not modelled.
- Numbers are reals; IEEE-754 rounding (so `profit + totalExpenses == revenue` holding only up to rounding) is not modelled.
- The reliability score, the job queue (`scheduleReliabilityUpdate`, `scheduleJobReminder`) and the nightly scheduler are not part of this model. Only the reminder delay and the completion flag are computed.
- Availability-window, recency and past-performance scoring do not exist in the code and are not modelled.
- `calculateBadge` and `createNotification` are not part of this model. The badge is a function parameter, and notifications are returned as values.
- Socket emits, populate projections, Mongo sort mechanics and response bodies beyond status and message are left out.
- `getOrganizerEvents`, `getEventDetails`, `uploadTicketImage`, `verifyQRAccess`, `addEstimatedExpense`, `deleteEstimatedExpense`, `getMyApplications`, `getGroups`, `getMyProfile`, `getProfile` and `uploadVideo` are plain lookups, file uploads or copies of modelled patterns.
- Events.EventStore.AddExpense: the expense's own fields (a missing amount, say) are not validated, because the expense sub-schema declares no validators.
- Events.GetEventWorkers: the badge is computed by a function parameter, and the `populate` of worker names is left out, because their code is not part of this model.
- EventModel.NewEvent: the `qrCode` and `ticketImage` paths a creation body may also carry are not fields of the modelled event, because only QR generation and the ticket upload write them, and neither is part of this model. A body `videoCallId` that is not of the `call_<event>_<time>` form cannot be represented.
- Events.ApplyPatch: the same `qrCode`, `ticketImage` and free-form `videoCallId` paths are left out of a patch. A body expense that brings its own `_id` gets a fresh id instead. A partial `tickets` object takes the ticket defaults for its missing fields, as the next read of the document fills them in.
- Events.EventStore.UpdateTickets: the three ticket numbers are taken as given. A body that omits one (undefined, so a NaN revenue) is not modelled, because floating point is not.
- GroupChat.Preview: the 50-character cut counts characters, while `length` and `substring` count UTF-16 code units. A text with characters outside the Basic Multilingual Plane (most emoji) is cut at a different place by the program.
- ProfileModel.ValidProfile: the bio's 500-character limit counts characters, while the schema's `maxlength` counts UTF-16 code units, so the two differ for characters outside the Basic Multilingual Plane.
- Profiles.ProfileStore.CreateOrUpdateProfile: a new profile is built from the corrected `EmptyProfile` of the Findings table, with the four section arrays. In the program as written it has none, so a later section edit answers 500 where the model's store succeeds.
- Matching.CalculateMatchScores: "any failure returns the input" is modelled only for a failed profile lookup, because nothing else in the scorer can throw once values are modelled.
- Profiles.SearchTalent: a non-numeric minRating answers 500, as the program does when the populate match casts NaN against the numeric `ratingAvg` path; User.js is not part of this model, so that path's type is taken from its use in the code.
- Identifiers are assumed to be well-formed ObjectIds. In the program a malformed id in `findById` or `findOne({ _id })` throws a CastError and answers 500; the model can only answer "not found" (404) for such an id.
- Profiles.SearchTalent: the populate step reads each user's rating from a map. Users without a rating and the projection of user fields are not modelled.
- `toFixed`, `toLocaleString` and template-string formatting are left out. Labels carry the number they print.
- Lower-casing is ASCII only, and `trim` knows ASCII white space only; Unicode case folding is not modelled.
- Date strings are turned into milliseconds by a parameter. Time zones are not modelled.
- The model has no concurrency. Two requests racing on the same document (for example two applies, before the duplicate check) are not modelled.

=== FILE: applications.dfy ===
/** The application lifecycle: a worker applies to an open job (pending), the
    job's organizer accepts (accepted), the worker checks in and out, and the
    first check-out that balances the check-ins computes the hours worked and
    completes the application. */
module Applications {
  import opened Wrappers
  import Seqs

  type Id = string

  const MsPerHour: int := 1000 * 60 * 60
  const MsPerDay: int := 24 * 60 * 60 * 1000

  /** The status code and message of a response. */
  datatype Reply = Reply(code: int, message: string)

  datatype Applicant = Applicant(proId: Id, appliedAt: int, status: string)

  /** The fields of a job the controller reads or writes. */
  datatype Job = Job(organizerId: Id, status: string, dateStart: int, applicants: seq<Applicant>)

  /** The application statuses this controller produces. */
  datatype Status = Pending | Accepted | Completed

  datatype Stamp = Stamp(kind: string, timestamp: int, location: Option<string>)

  datatype Application = Application(
    jobId: Id,
    proId: Id,
    coverLetter: string,
    status: Status,
    stamps: seq<Stamp>,
    hoursWorked: real)

  predicate HasApplied(apps: seq<Application>, jobId: Id, proId: Id) {
    exists i | 0 <= i < |apps| :: apps[i].jobId == jobId && apps[i].proId == proId
  }

  /** The checks of `applyToJob`, in the order it makes them. */
  function ApplyCheck(jobs: map<Id, Job>, apps: seq<Application>, jobId: Id, proId: Id): (r: Reply)
    ensures r.code == 404 <==> jobId !in jobs
    ensures r.code == 400 <==> jobId in jobs && (jobs[jobId].status != "open" || HasApplied(apps, jobId, proId))
    ensures r.code == 201 <==> jobId in jobs && jobs[jobId].status == "open" && !HasApplied(apps, jobId, proId)
  {
    if jobId !in jobs then Reply(404, "Job not found")
    else if jobs[jobId].status != "open" then Reply(400, "Job is not accepting applications")
    else if HasApplied(apps, jobId, proId) then Reply(400, "Already applied to this job")
    else Reply(201, "Application submitted successfully")
  }

  /** The delay of the pre-job reminder: scheduled only when the job starts
      more than a day from now, one day before the start. */
  function ReminderDelay(dateStart: int, now: int): (r: Option<int>)
    ensures r.Some? <==> dateStart - now > MsPerDay
    ensures r.Some? ==> r.value > 0 && now + r.value + MsPerDay == dateStart
  {
    var timeUntilJob := dateStart - now;
    if timeUntilJob > MsPerDay then Some(timeUntilJob - MsPerDay) else None
  }

  function OfKind(kind: string): Stamp -> bool {
    (s: Stamp) => s.kind == kind
  }

  function TimestampOf(s: Stamp): int {
    s.timestamp
  }

  /** The timestamps of the stamps of one kind, in order and with repeats:
      `stamps.filter(t => t.type === kind)`, read by timestamp. */
  function Times(stamps: seq<Stamp>, kind: string): (r: seq<int>)
    ensures r == Seqs.Map(Seqs.Filter(stamps, OfKind(kind)), TimestampOf)
    ensures |r| <= |stamps|
    ensures forall t :: t in r ==> exists s :: s in stamps && s.kind == kind && s.timestamp == t
    ensures forall s :: s in stamps && s.kind == kind ==> s.timestamp in r
  {
    if stamps == [] then []
    else
      var init := stamps[..|stamps| - 1];
      var last := stamps[|stamps| - 1];
      assert init + [last] == stamps;
      Seqs.FilterSnoc(init, last, OfKind(kind));
      Seqs.MapAppend(Seqs.Filter(init, OfKind(kind)), if last.kind == kind then [last] else [], TimestampOf);
      Times(init, kind) + (if last.kind == kind then [last.timestamp] else [])
  }

  function Sum(xs: seq<int>): int {
    if xs == [] then 0 else Sum(xs[..|xs| - 1]) + xs[|xs| - 1]
  }

  /** The hours worked: the i-th check-out minus the i-th check-in, summed and
      converted from milliseconds. */
  function PairedHours(ins: seq<int>, outs: seq<int>): real
    requires |ins| == |outs|
  {
    if ins == [] then 0.0
    else
      PairedHours(ins[..|ins| - 1], outs[..|outs| - 1])
      + (outs[|outs| - 1] - ins[|ins| - 1]) as real / MsPerHour as real
  }

  /** The pairing only matters through the totals: the hours are the summed
      check-out times minus the summed check-in times. */
  lemma {:induction false} PairedHoursTotals(ins: seq<int>, outs: seq<int>)
    requires |ins| == |outs|
    ensures PairedHours(ins, outs) == (Sum(outs) - Sum(ins)) as real / MsPerHour as real
  {
    if ins != [] {
      PairedHoursTotals(ins[..|ins| - 1], outs[..|outs| - 1]);
    }
  }

  /** When every check-out is no earlier than its check-in, the hours are not
      negative. */
  lemma {:induction false} PairedHoursNonNegative(ins: seq<int>, outs: seq<int>)
    requires |ins| == |outs|
    requires forall i :: 0 <= i < |ins| ==> ins[i] <= outs[i]
    ensures PairedHours(ins, outs) >= 0.0
  {
    if ins != [] {
      PairedHoursNonNegative(ins[..|ins| - 1], outs[..|outs| - 1]);
    }
  }

  /** The accumulation loop of `checkIn`. */
  method SumHours(ins: seq<int>, outs: seq<int>) returns (totalHours: real)
    requires |ins| == |outs|
    ensures totalHours == PairedHours(ins, outs)
  {
    totalHours := 0.0;
    var i := 0;
    while i < |ins|
      invariant 0 <= i <= |ins|
      invariant totalHours == PairedHours(ins[..i], outs[..i])
    {
      var diff := outs[i] - ins[i];
      assert ins[..i + 1][..i] == ins[..i] && outs[..i + 1][..i] == outs[..i];
      totalHours := totalHours + diff as real / MsPerHour as real;
      i := i + 1;
    }
    assert ins[..i] == ins && outs[..i] == outs;
  }

  /** As many check-ins as check-outs. */
  predicate Balanced(stamps: seq<Stamp>) {
    |Times(stamps, "check-in")| == |Times(stamps, "check-out")|
  }

  /** What a recorded stamp does to an accepted application. */
  function RecordStamp(a: Application, kind: string, now: int, location: Option<string>): (r: Application)
    ensures r.stamps == a.stamps + [Stamp(kind, now, location)]
    ensures r.jobId == a.jobId && r.proId == a.proId && r.coverLetter == a.coverLetter
    ensures kind != "check-out" || !Balanced(r.stamps) ==>
              r.status == a.status && r.hoursWorked == a.hoursWorked
    ensures kind == "check-out" && Balanced(r.stamps) ==>
              r.status == Completed &&
              r.hoursWorked == PairedHours(Times(r.stamps, "check-in"), Times(r.stamps, "check-out"))
  {
    var stamps := a.stamps + [Stamp(kind, now, location)];
    if kind == "check-out" && Balanced(stamps) then
      a.(stamps := stamps, status := Completed,
         hoursWorked := PairedHours(Times(stamps, "check-in"), Times(stamps, "check-out")))
    else a.(stamps := stamps)
  }

  /** A check-in stamp adds one check-in time and no check-out time. */
  lemma CheckInCounts(a: Application, now: int, location: Option<string>)
    ensures var r := RecordStamp(a, "check-in", now, location);
            Times(r.stamps, "check-in") == Times(a.stamps, "check-in") + [now]
            && Times(r.stamps, "check-out") == Times(a.stamps, "check-out")
  {
    var s := a.stamps + [Stamp("check-in", now, location)];
    assert s[..|s| - 1] == a.stamps;
  }

  predicate AcceptedFor(a: Application, jobId: Id, proId: Id) {
    a.jobId == jobId && a.proId == proId && a.status == Accepted
  }

  /** `Application.findOne({jobId, proId, status: 'accepted'})`: the first such
      application, if any. */
  function FindAccepted(apps: seq<Application>, jobId: Id, proId: Id, from: nat): (r: Option<nat>)
    requires from <= |apps|
    ensures r.None? <==> forall i :: from <= i < |apps| ==> !AcceptedFor(apps[i], jobId, proId)
    ensures r.Some? ==> from <= r.value < |apps| && AcceptedFor(apps[r.value], jobId, proId)
    decreases |apps| - from
  {
    if from == |apps| then None
    else if AcceptedFor(apps[from], jobId, proId) then Some(from)
    else FindAccepted(apps, jobId, proId, from + 1)
  }

  predicate SamePair(a: Application, b: Application) {
    a.jobId == b.jobId && a.proId == b.proId
  }

  /** The jobs and applications collections. An application's id is its
      position in `applications`. */
  class Board {
    var jobs: map<Id, Job>
    var applications: seq<Application>

    /** At most one application per (job, worker): `applyToJob` refuses a
        second one. */
    ghost predicate Valid()
      reads this
    {
      forall i, j :: 0 <= i < j < |applications| ==> !SamePair(applications[i], applications[j])
    }

    constructor (jobs: map<Id, Job>)
      ensures Valid() && this.jobs == jobs && applications == []
    {
      this.jobs := jobs;
      applications := [];
    }

    /** `applyToJob`. */
    method ApplyToJob(jobId: Id, proId: Id, coverLetter: string, now: int) returns (reply: Reply)
      requires Valid()
      modifies this
      ensures Valid()
      ensures reply == ApplyCheck(old(jobs), old(applications), jobId, proId)
      ensures reply.code != 201 ==> jobs == old(jobs) && applications == old(applications)
      ensures reply.code == 201 ==>
                applications == old(applications) + [Application(jobId, proId, coverLetter, Pending, [], 0.0)]
                && jobs == old(jobs)[jobId := old(jobs)[jobId].(applicants :=
                     old(jobs)[jobId].applicants + [Applicant(proId, now, "pending")])]
    {
      reply := ApplyCheck(jobs, applications, jobId, proId);
      if reply.code == 201 {
        applications := applications + [Application(jobId, proId, coverLetter, Pending, [], 0.0)];
        var job := jobs[jobId];
        jobs := jobs[jobId := job.(applicants := job.applicants + [Applicant(proId, now, "pending")])];
      }
    }

    /** `acceptApplication`; `reminder` is the delay of the scheduled pre-job
        reminder, if one is scheduled. */
    method AcceptApplication(appId: int, caller: Id, now: int) returns (reply: Reply, reminder: Option<int>)
      requires Valid()
      modifies this
      ensures Valid() && jobs == old(jobs)
      ensures reply.code == 404 <==> !(0 <= appId < |old(applications)|)
      ensures reply.code == 500 <==> 0 <= appId < |old(applications)| && old(applications)[appId].jobId !in jobs
      ensures reply.code == 403 <==> 0 <= appId < |old(applications)| && old(applications)[appId].jobId in jobs
                                     && jobs[old(applications)[appId].jobId].organizerId != caller
      ensures reply.code == 200 <==> 0 <= appId < |old(applications)| && old(applications)[appId].jobId in jobs
                                     && jobs[old(applications)[appId].jobId].organizerId == caller
      ensures reply.code != 200 ==> applications == old(applications) && reminder.None?
      ensures reply.code == 200 ==>
                applications == old(applications)[appId := old(applications)[appId].(status := Accepted)]
                && reminder == ReminderDelay(jobs[applications[appId].jobId].dateStart, now)
    {
      reminder := None;
      if !(0 <= appId < |applications|) {
        return Reply(404, "Application not found"), None;
      }
      var application := applications[appId];
      if application.jobId !in jobs {
        return Reply(500, "Error accepting application"), None;
      }
      var job := jobs[application.jobId];
      if job.organizerId != caller {
        return Reply(403, "Unauthorized"), None;
      }
      applications := applications[appId := application.(status := Accepted)];
      reminder := ReminderDelay(job.dateStart, now);
      reply := Reply(200, "Application accepted");
    }

    /** `checkIn`: records a stamp of the given type on the worker's accepted
        application for the job; `completed` says whether the stamp completed
        it (which is when the reliability update is scheduled). */
    method CheckIn(jobId: Id, proId: Id, kind: string, location: Option<string>, now: int)
      returns (reply: Reply, completed: bool)
      requires Valid()
      modifies this
      ensures Valid() && jobs == old(jobs)
      ensures var found := FindAccepted(old(applications), jobId, proId, 0);
              && (reply.code == 404 <==> found.None?)
              && (found.None? ==> applications == old(applications) && !completed)
              && (found.Some? ==>
                    applications == old(applications)[found.value :=
                      RecordStamp(old(applications)[found.value], kind, now, location)]
                    && completed == (applications[found.value].status == Completed))
    {
      completed := false;
      var found := FindAccepted(applications, jobId, proId, 0);
      if found.None? {
        return Reply(404, "Application not found or not accepted"), false;
      }
      var i := found.value;
      var stamped;
      stamped, completed := StampAccepted(applications[i], kind, now, location);
      applications := applications[i := stamped];
      reply := Reply(200, "Check-in recorded");
    }
  }

  /** The body of `checkIn` once the accepted application is found: push the
      stamp and, on a check-out that balances the check-ins, run the
      accumulation loop and complete the application. */
  method StampAccepted(a: Application, kind: string, now: int, location: Option<string>)
    returns (r: Application, completed: bool)
    requires a.status == Accepted
    ensures r == RecordStamp(a, kind, now, location)
    ensures completed <==> r.status == Completed
  {
    var stamps := a.stamps + [Stamp(kind, now, location)];
    var status, hoursWorked := a.status, a.hoursWorked;
    completed := false;
    if kind == "check-out" {
      var checkIns := Times(stamps, "check-in");
      var checkOuts := Times(stamps, "check-out");
      if |checkIns| == |checkOuts| {
        hoursWorked := SumHours(checkIns, checkOuts);
        status := Completed;
        completed := true;
      }
    }
    r := a.(stamps := stamps, status := status, hoursWorked := hoursWorked);
  }

  /** While an application is completed, no accepted application exists for
      its (job, worker), so a check-in or check-out for it is answered 404
      (until the organizer accepts it again; see ReacceptReopens). */
  lemma CompletedIsFinal(apps: seq<Application>, k: nat)
    requires forall i, j :: 0 <= i < j < |apps| ==> !SamePair(apps[i], apps[j])
    requires k < |apps| && apps[k].status == Completed
    ensures FindAccepted(apps, apps[k].jobId, apps[k].proId, 0).None?
  {
    forall i | 0 <= i < |apps| ensures !AcceptedFor(apps[i], apps[k].jobId, apps[k].proId) {
      if i < k {
        assert !SamePair(apps[i], apps[k]);
      } else if i > k {
        assert !SamePair(apps[k], apps[i]);
      }
    }
  }

  /** `acceptApplication` does not look at the current status: accepting a
      completed application again makes it the accepted one for its (job,
      worker), so check-ins are taken once more. */
  lemma ReacceptReopens(apps: seq<Application>, k: nat)
    requires k < |apps| && apps[k].status == Completed
    ensures var again := apps[k := apps[k].(status := Accepted)];
            FindAccepted(again, apps[k].jobId, apps[k].proId, 0).Some?
  {
    var again := apps[k := apps[k].(status := Accepted)];
    assert AcceptedFor(again[k], apps[k].jobId, apps[k].proId);
  }
}

=== FILE: distance.dfy ===
/** The client's distance label: the unit choice of `formatDistance` and the
    guards and coordinate order of `getRelativeDistance`. */
module Distance {
  import opened Wrappers
  import opened Numbers

  /** `(lat1, lon1, lat2, lon2) -> km`; the trigonometry is not modelled. */
  type Haversine = (real, real, real, real) -> real

  /** The label, with the number it shows; `toFixed(1)` is kept as the
      distance it formats. `NaNKm` is what a NaN distance prints. */
  datatype Label = Metres(m: int) | KmOneDecimal(km: real) | KmRounded(wholeKm: int) | NaNKm

  /** `formatDistance`; `None` stands for a NaN distance, which fails both
      comparisons and reaches the last branch. */
  function FormatDistance(d: Option<real>): (r: Label)
    ensures d.None? <==> r.NaNKm?
    ensures d.Some? && d.value < 1.0 <==> r.Metres?
    ensures d.Some? && 1.0 <= d.value < 10.0 <==> r.KmOneDecimal?
    ensures d.Some? && d.value >= 10.0 <==> r.KmRounded?
    ensures r.Metres? ==> r.m as real <= d.value * 1000.0 + 0.5 < r.m as real + 1.0
    ensures r.KmOneDecimal? ==> r.km == d.value
    ensures r.KmRounded? ==> r.wholeKm >= 10 && r.wholeKm as real <= d.value + 0.5 < r.wholeKm as real + 1.0
  {
    match d
    case None => NaNKm
    case Some(km) =>
      if km < 1.0 then Metres(Round(km * 1000.0))
      else if km < 10.0 then KmOneDecimal(km)
      else KmRounded(Round(km))
  }

  /** Below one kilometre the label is a whole number of metres from 0 to
      1000; the top of the range rounds up to "1000m". */
  lemma MetresRange(d: real)
    requires 0.0 <= d < 1.0
    ensures FormatDistance(Some(d)).Metres?
    ensures 0 <= FormatDistance(Some(d)).m <= 1000
    ensures d >= 0.9995 ==> FormatDistance(Some(d)).m == 1000
  {
  }

  /** A GeoJSON point of a job: `coordinates` may be missing; an empty array
      is still present. */
  datatype JobLocation = JobLocation(coordinates: Option<seq<real>>)

  datatype UserLocation = UserLocation(latitude: real, longitude: real)

  /** `getRelativeDistance`: no label without job coordinates or a user
      location; otherwise the coordinates are read as [lon, lat] and the
      distance is taken from the user to the job. A missing coordinate is
      undefined, which makes the distance NaN. */
  function GetRelativeDistance(jobLocation: Option<JobLocation>, userLocation: Option<UserLocation>,
                               haversine: Haversine): (r: Option<Label>)
    ensures r.None? <==> jobLocation.None? || jobLocation.value.coordinates.None? || userLocation.None?
    ensures r.Some? && |jobLocation.value.coordinates.value| >= 2 ==>
              var c := jobLocation.value.coordinates.value;
              var u := userLocation.value;
              r.value == FormatDistance(Some(haversine(u.latitude, u.longitude, c[1], c[0])))
    ensures r.Some? && |jobLocation.value.coordinates.value| < 2 ==> r.value == NaNKm
  {
    if jobLocation.None? || jobLocation.value.coordinates.None? || userLocation.None? then None
    else
      var c := jobLocation.value.coordinates.value;
      var u := userLocation.value;
      var distance := if |c| >= 2 then Some(haversine(u.latitude, u.longitude, c[1], c[0])) else None;
      Some(FormatDistance(distance))
  }
}

=== FILE: eventcreate.dfy ===
/** The event creation page: the estimated-expense list it edits, the cost
    estimate it shows, and the checks it runs before posting. */
module EventCreate {
  import opened Wrappers
  import opened Text
  import opened EventModel

  /** A planned expense; the amount is `parseFloat` of what was typed, `None`
      standing for NaN. */
  datatype PlannedExpense = PlannedExpense(category: string, description: string, estimatedAmount: Option<real>)

  /** The expense being typed, as the raw input strings. */
  datatype Draft = Draft(category: string, description: string, estimatedAmount: string)

  const EmptyDraft: Draft := Draft("", "", "")

  /** `filter((_, i) => i !== index)`. */
  function Without<T>(s: seq<T>, index: int): (r: seq<T>)
    ensures 0 <= index < |s| ==>
              |r| == |s| - 1
              && (forall k :: 0 <= k < index ==> r[k] == s[k])
              && (forall k :: index <= k < |r| ==> r[k] == s[k + 1])
    ensures !(0 <= index < |s|) ==> r == s
  {
    if s == [] then []
    else if index == 0 then s[1..]
    else [s[0]] + Without(s[1..], index - 1)
  }

  /** The component state of the expense editor. */
  class ExpenseEditor {
    var estimatedExpenses: seq<PlannedExpense>
    var newExpense: Draft

    constructor ()
      ensures estimatedExpenses == [] && newExpense == EmptyDraft
    {
      estimatedExpenses := [];
      newExpense := EmptyDraft;
    }

    /** `addExpense`: a draft without category or amount is refused and
        nothing changes; otherwise it is appended, amount parsed, and the
        draft is cleared. */
    method AddExpense(parseFloat: string -> Option<real>) returns (accepted: bool)
      modifies this
      ensures accepted <==> old(newExpense).category != "" && old(newExpense).estimatedAmount != ""
      ensures !accepted ==> estimatedExpenses == old(estimatedExpenses) && newExpense == old(newExpense)
      ensures accepted ==>
                estimatedExpenses == old(estimatedExpenses) +
                  [PlannedExpense(old(newExpense).category, old(newExpense).description, parseFloat(old(newExpense).estimatedAmount))]
                && newExpense == EmptyDraft
    {
      if newExpense.category == "" || newExpense.estimatedAmount == "" {
        return false;
      }
      estimatedExpenses := estimatedExpenses +
        [PlannedExpense(newExpense.category, newExpense.description, parseFloat(newExpense.estimatedAmount))];
      newExpense := EmptyDraft;
      accepted := true;
    }

    /** `removeExpense(index)`. */
    method RemoveExpense(index: int)
      modifies this
      ensures estimatedExpenses == Without(old(estimatedExpenses), index)
      ensures newExpense == old(newExpense)
    {
      estimatedExpenses := Without(estimatedExpenses, index);
    }
  }

  /** `parseFloat(s) || 0`: NaN and 0 both give 0. */
  function OrZero(x: Option<real>): real {
    x.GetOr(0.0)
  }

  /** The sum of the planned amounts; one NaN amount makes it NaN. */
  function TotalEstimated(expenses: seq<PlannedExpense>): (r: Option<real>)
    ensures r.None? <==> exists k :: 0 <= k < |expenses| && expenses[k].estimatedAmount.None?
  {
    if expenses == [] then Some(0.0)
    else
      var rest := TotalEstimated(expenses[..|expenses| - 1]);
      var last := expenses[|expenses| - 1].estimatedAmount;
      if rest.Some? && last.Some? then Some(rest.value + last.value) else None
  }

  /** The inputs of the estimate, as typed. */
  datatype Estimate = Estimate(totalDispersed: string, pricePerTicket: string, totalWorkers: string, costPerWorker: string)

  function TicketRevenue(e: Estimate, parseFloat: string -> Option<real>): real {
    OrZero(parseFloat(e.totalDispersed)) * OrZero(parseFloat(e.pricePerTicket))
  }

  function WorkerCost(e: Estimate, parseFloat: string -> Option<real>): real {
    OrZero(parseFloat(e.totalWorkers)) * OrZero(parseFloat(e.costPerWorker))
  }

  /** Revenue less worker cost less the planned expenses; NaN when a planned
      amount is NaN. */
  function EstimatedProfit(e: Estimate, expenses: seq<PlannedExpense>, parseFloat: string -> Option<real>): (r: Option<real>)
    ensures r.Some? <==> TotalEstimated(expenses).Some?
    ensures r.Some? ==> r.value + WorkerCost(e, parseFloat) + TotalEstimated(expenses).value == TicketRevenue(e, parseFloat)
  {
    var total := TotalEstimated(expenses);
    if total.Some? then Some(TicketRevenue(e, parseFloat) - WorkerCost(e, parseFloat) - total.value) else None
  }

  /** Inputs that do not parse count as 0 in the estimate. */
  lemma UnparsedInputsCountZero(e: Estimate, parseFloat: string -> Option<real>)
    requires parseFloat(e.totalDispersed).None? || parseFloat(e.costPerWorker).None?
    ensures parseFloat(e.totalDispersed).None? ==> TicketRevenue(e, parseFloat) == 0.0
    ensures parseFloat(e.costPerWorker).None? ==> WorkerCost(e, parseFloat) == 0.0
  {
  }

  /** Adding a planned expense lowers the profit by its amount. */
  lemma {:induction false} AddLowersProfit(e: Estimate, expenses: seq<PlannedExpense>, x: PlannedExpense,
                                           parseFloat: string -> Option<real>)
    requires EstimatedProfit(e, expenses, parseFloat).Some? && x.estimatedAmount.Some?
    ensures EstimatedProfit(e, expenses + [x], parseFloat) ==
              Some(EstimatedProfit(e, expenses, parseFloat).value - x.estimatedAmount.value)
  {
    assert (expenses + [x])[..|expenses|] == expenses;
  }

  /** Removing a planned expense lowers the total by its amount. */
  lemma {:induction false} RemoveLowersTotal(expenses: seq<PlannedExpense>, index: nat)
    requires index < |expenses| && TotalEstimated(expenses).Some?
    ensures TotalEstimated(Without(expenses, index)).Some?
    ensures TotalEstimated(Without(expenses, index)).value ==
              TotalEstimated(expenses).value - expenses[index].estimatedAmount.value
  {
    var n := |expenses|;
    var init := expenses[..n - 1];
    var last := expenses[n - 1];
    assert expenses == init + [last];
    TotalSnoc(init, last);
    if index == n - 1 {
      assert Without(expenses, index) == init;
    } else {
      RemoveLowersTotal(init, index);
      WithoutSnoc(init, last, index);
      TotalSnoc(Without(init, index), last);
    }
  }

  lemma TotalSnoc(xs: seq<PlannedExpense>, x: PlannedExpense)
    ensures TotalEstimated(xs + [x]) ==
              if TotalEstimated(xs).Some? && x.estimatedAmount.Some?
              then Some(TotalEstimated(xs).value + x.estimatedAmount.value) else None
  {
    assert (xs + [x])[..|xs|] == xs;
  }

  lemma WithoutSnoc<T>(s: seq<T>, x: T, index: nat)
    requires index < |s|
    ensures Without(s + [x], index) == Without(s, index) + [x]
  {
    var l := Without(s + [x], index);
    var r := Without(s, index) + [x];
    assert |l| == |r|;
    forall k | 0 <= k < |l| ensures l[k] == r[k] {
      if k < index {
      } else if k < |l| - 1 {
      } else {
        assert l[k] == (s + [x])[k + 1];
      }
    }
  }

  /** What the form posts. */
  datatype WorkerCosts = WorkerCosts(totalWorkers: real, costPerWorker: real)

  datatype EventData = EventData(
    title: string,
    description: string,
    dateStart: string,
    dateEnd: string,
    location: Place,
    tickets: Tickets,
    workerCosts: WorkerCosts,
    estimatedExpenses: seq<PlannedExpense>)

  datatype Form = Form(title: string, description: string, dateStart: string, dateEnd: string, location: Option<Place>)

  datatype Submission = Rejected(message: string) | Posted(data: EventData)

  /** The start-before-end check; an invalid date compares false and so
      passes it. */
  predicate EndsBeforeStart(f: Form, toMillis: string -> Option<int>) {
    toMillis(f.dateStart).Some? && toMillis(f.dateEnd).Some?
    && toMillis(f.dateStart).value >= toMillis(f.dateEnd).value
  }

  /** `handleSubmit`: the checks in order, the first failure reported, and
      otherwise the event data posted. */
  function Submit(f: Form, e: Estimate, expenses: seq<PlannedExpense>,
                  parseFloat: string -> Option<real>, toMillis: string -> Option<int>): (r: Submission)
    ensures r == Rejected("Event title is required") <==> IsBlank(f.title)
    ensures r == Rejected("Event description is required") <==> !IsBlank(f.title) && IsBlank(f.description)
    ensures r == Rejected("Start and end dates are required") <==>
              !IsBlank(f.title) && !IsBlank(f.description) && (f.dateStart == "" || f.dateEnd == "")
    ensures r == Rejected("End date must be after start date") <==>
              !IsBlank(f.title) && !IsBlank(f.description) && f.dateStart != "" && f.dateEnd != ""
              && EndsBeforeStart(f, toMillis)
    ensures r == Rejected("Event location is required") <==>
              !IsBlank(f.title) && !IsBlank(f.description) && f.dateStart != "" && f.dateEnd != ""
              && !EndsBeforeStart(f, toMillis) && f.location.None?
    ensures r.Posted? <==>
              !IsBlank(f.title) && !IsBlank(f.description) && f.dateStart != "" && f.dateEnd != ""
              && !EndsBeforeStart(f, toMillis) && f.location.Some?
    ensures r.Posted? ==>
              r.data.title == Trim(f.title) && r.data.description == Trim(f.description)
              && r.data.dateStart == f.dateStart && r.data.dateEnd == f.dateEnd
              && r.data.location == f.location.value
              && r.data.tickets.totalSold == 0.0
              && r.data.tickets.totalDispersed == OrZero(parseFloat(e.totalDispersed))
              && r.data.tickets.pricePerTicket == OrZero(parseFloat(e.pricePerTicket))
              && r.data.workerCosts == WorkerCosts(OrZero(parseFloat(e.totalWorkers)), OrZero(parseFloat(e.costPerWorker)))
              && r.data.estimatedExpenses == expenses
  {
    if Trim(f.title) == "" then Rejected("Event title is required")
    else if Trim(f.description) == "" then Rejected("Event description is required")
    else if f.dateStart == "" || f.dateEnd == "" then Rejected("Start and end dates are required")
    else if EndsBeforeStart(f, toMillis) then Rejected("End date must be after start date")
    else if f.location.None? then Rejected("Event location is required")
    else
      Posted(EventData(Trim(f.title), Trim(f.description), f.dateStart, f.dateEnd, f.location.value,
                       Tickets(OrZero(parseFloat(e.totalDispersed)), 0.0, OrZero(parseFloat(e.pricePerTicket))),
                       WorkerCosts(OrZero(parseFloat(e.totalWorkers)), OrZero(parseFloat(e.costPerWorker))),
                       expenses))
  }
}

=== FILE: eventmodel.dfy ===
/** The Event document: its fields, the defaults creation fills in, and the
    validators a save runs. */
module EventModel {
  import opened Wrappers
  import opened Text

  type Id = string

  datatype Place = Place(address: Option<string>, lat: Option<real>, lng: Option<real>)

  datatype Tickets = Tickets(totalDispersed: real, totalSold: real, pricePerTicket: real)

  datatype Expense = Expense(id: nat, category: string, description: string, amount: real, date: int)

  datatype EstimatedExpense = EstimatedExpense(category: string, description: string, estimatedAmount: real)

  /** The video-call id `call_<eventId>_<start time>`, kept as its two parts. */
  datatype CallId = CallId(eventId: nat, startedAt: int)

  datatype Event = Event(
    title: string,
    description: string,
    organizerId: Id,
    location: Option<Place>,
    dateStart: int,
    dateEnd: int,
    videoCallActive: bool,
    videoCallId: Option<CallId>,
    status: string,
    tickets: Tickets,
    expenses: seq<Expense>,
    estimatedExpenses: seq<EstimatedExpense>,
    revenue: Option<real>,
    estimatedProfit: real)

  const DefaultStatus: string := "upcoming"

  /** The status enumeration. */
  predicate ValidStatus(s: string) {
    s == "upcoming" || s == "ongoing" || s == "completed" || s == "cancelled"
  }

  /** The ticket validators: no negative counts or price, and no more sold
      than dispersed. */
  predicate ValidTickets(t: Tickets) {
    t.totalDispersed >= 0.0 && t.totalSold >= 0.0 && t.pricePerTicket >= 0.0
    && t.totalSold <= t.totalDispersed
  }

  /** Everything a save checks: required title and description, the end
      strictly after the start, the status enumeration and the tickets. */
  predicate ValidEvent(e: Event) {
    e.title != "" && e.description != ""
    && e.dateEnd > e.dateStart
    && ValidStatus(e.status)
    && ValidTickets(e.tickets)
  }

  /** The ticket fields of a request body; any may be missing. */
  datatype TicketsBody = TicketsBody(totalDispersed: Option<real>, totalSold: Option<real>, pricePerTicket: Option<real>)

  /** An expense as a request body gives it: no id yet, and maybe no date. */
  datatype ExpenseInput = ExpenseInput(category: string, description: string, amount: real, date: Option<int>)

  /** The sub-documents an array of body expenses becomes: each gets the next
      fresh id, counting up from `firstId`, and `now` when it has no date. */
  function Numbered(xs: seq<ExpenseInput>, firstId: nat, now: int): (r: seq<Expense>)
    ensures |r| == |xs|
    ensures forall k :: 0 <= k < |r| ==> r[k].id == firstId + k && r[k].amount == xs[k].amount
  {
    seq(|xs|, k requires 0 <= k < |xs| =>
      Expense(firstId + k, xs[k].category, xs[k].description, xs[k].amount, xs[k].date.GetOr(now)))
  }

  /** The fields of a creation request body; a missing string is "". A
      `revenue` of `Some(None)` is an explicit null, which the default does
      not replace. */
  datatype EventBody = EventBody(
    title: string,
    description: string,
    organizerId: Option<Id>,
    location: Option<Place>,
    dateStart: Option<int>,
    dateEnd: Option<int>,
    status: Option<string>,
    tickets: Option<TicketsBody>,
    expenses: seq<ExpenseInput>,
    estimatedExpenses: seq<EstimatedExpense>,
    videoCallActive: Option<bool>,
    videoCallId: Option<CallId>,
    revenue: Option<Option<real>>,
    estimatedProfit: Option<real>)

  function TicketsWithDefaults(t: Option<TicketsBody>): (r: Tickets)
    ensures t.None? ==> r == Tickets(0.0, 0.0, 0.0)
  {
    match t
    case None => Tickets(0.0, 0.0, 0.0)
    case Some(b) => Tickets(b.totalDispersed.GetOr(0.0), b.totalSold.GetOr(0.0), b.pricePerTicket.GetOr(0.0))
  }

  /** `Event.create({...body, organizerId})`: the defaults filled in, the title
      trimmed, and the validators run; the organizer is always the caller.
      The body's expenses take fresh ids from `firstId` on. */
  function NewEvent(body: EventBody, organizerId: Id, firstId: nat, now: int): (r: Result<Event>)
    ensures r.Ok? ==> ValidEvent(r.value) && r.value.organizerId == organizerId
    ensures r.Ok? <==> body.dateStart.Some? && body.dateEnd.Some? && body.dateEnd.value > body.dateStart.value
                       && !IsBlank(body.title) && body.description != ""
                       && ValidStatus(body.status.GetOr(DefaultStatus))
                       && ValidTickets(TicketsWithDefaults(body.tickets))
    ensures r.Ok? ==> r.value.status == body.status.GetOr(DefaultStatus)
                      && r.value.revenue == body.revenue.GetOr(Some(0.0))
                      && r.value.estimatedProfit == body.estimatedProfit.GetOr(0.0)
                      && r.value.videoCallActive == body.videoCallActive.GetOr(false)
                      && r.value.videoCallId == body.videoCallId
                      && r.value.expenses == Numbered(body.expenses, firstId, now)
                      && r.value.dateStart == body.dateStart.value && r.value.dateEnd == body.dateEnd.value
  {
    if body.dateStart.None? || body.dateEnd.None? then Err(500, "Error creating event")
    else
      var e := Event(Trim(body.title), body.description, organizerId, body.location,
                     body.dateStart.value, body.dateEnd.value,
                     body.videoCallActive.GetOr(false), body.videoCallId,
                     body.status.GetOr(DefaultStatus), TicketsWithDefaults(body.tickets),
                     Numbered(body.expenses, firstId, now), body.estimatedExpenses,
                     body.revenue.GetOr(Some(0.0)), body.estimatedProfit.GetOr(0.0));
      if ValidEvent(e) then Ok(e) else Err(500, "Error creating event")
  }

  /** A fresh event with every default taken: status upcoming, no tickets,
      revenue and estimated profit 0, no expenses and no video call. */
  lemma DefaultsOfNewEvent(title: string, description: string, organizer: Id, start: int, end: int, firstId: nat, now: int)
    requires !IsBlank(title) && description != "" && end > start
    ensures var r := NewEvent(EventBody(title, description, None, None, Some(start), Some(end), None, None,
                                        [], [], None, None, None, None), organizer, firstId, now);
            r.Ok? && r.value.status == "upcoming" && r.value.tickets == Tickets(0.0, 0.0, 0.0)
            && r.value.revenue == Some(0.0) && r.value.estimatedProfit == 0.0
            && r.value.expenses == [] && !r.value.videoCallActive && r.value.videoCallId.None?
  {
  }
}

=== FILE: events.dfy ===
/** The event controller: organizer-scoped mutations of events, the financial
    folds, the active-event listing and the worker roster of an event. */
module Events {
  import opened Wrappers
  import opened Text
  import opened Seqs
  import opened Sorting
  import opened Numbers
  import opened EventModel

  datatype Reply = Reply(code: int, message: string)

  /** The schema paths an `updateEvent` body may set; each present one
      replaces the stored one. A `revenue` or `videoCallId` of `Some(None)` is
      an explicit null. */
  datatype EventPatch = EventPatch(
    title: Option<string>,
    description: Option<string>,
    organizerId: Option<Id>,
    location: Option<Place>,
    dateStart: Option<int>,
    dateEnd: Option<int>,
    status: Option<string>,
    tickets: Option<TicketsBody>,
    expenses: Option<seq<ExpenseInput>>,
    estimatedExpenses: Option<seq<EstimatedExpense>>,
    videoCallActive: Option<bool>,
    videoCallId: Option<Option<CallId>>,
    revenue: Option<Option<real>>,
    estimatedProfit: Option<real>)

  const EmptyPatch: EventPatch :=
    EventPatch(None, None, None, None, None, None, None, None, None, None, None, None, None, None)

  /** How many expense ids a patch consumes. */
  function NewExpenseCount(p: EventPatch): nat {
    if p.expenses.Some? then |p.expenses.value| else 0
  }

  /** The stored event after a patch; body expenses take fresh ids from
      `firstId` on, and a replaced tickets object takes the ticket defaults. */
  function ApplyPatch(e: Event, p: EventPatch, firstId: nat, now: int): (r: Event)
    ensures p == EmptyPatch ==> r == e
    ensures p.expenses.None? ==> r.expenses == e.expenses
    ensures p.tickets.None? ==> r.tickets == e.tickets
    ensures forall x :: x in r.expenses ==> x in e.expenses || firstId <= x.id < firstId + NewExpenseCount(p)
  {
    var expenses := if p.expenses.Some? then Numbered(p.expenses.value, firstId, now) else e.expenses;
    assert forall x :: x in expenses && p.expenses.Some? ==> firstId <= x.id < firstId + NewExpenseCount(p);
    e.(title := if p.title.Some? then Trim(p.title.value) else e.title,
       description := p.description.GetOr(e.description),
       organizerId := p.organizerId.GetOr(e.organizerId),
       location := if p.location.Some? then p.location else e.location,
       dateStart := p.dateStart.GetOr(e.dateStart),
       dateEnd := p.dateEnd.GetOr(e.dateEnd),
       status := p.status.GetOr(e.status),
       tickets := if p.tickets.Some? then TicketsWithDefaults(p.tickets) else e.tickets,
       expenses := expenses,
       estimatedExpenses := p.estimatedExpenses.GetOr(e.estimatedExpenses),
       videoCallActive := p.videoCallActive.GetOr(e.videoCallActive),
       videoCallId := p.videoCallId.GetOr(e.videoCallId),
       revenue := p.revenue.GetOr(e.revenue),
       estimatedProfit := p.estimatedProfit.GetOr(e.estimatedProfit))
  }

  /** The event exists and belongs to the caller. */
  predicate Owned(events: map<nat, Event>, id: nat, caller: Id) {
    id in events && events[id].organizerId == caller
  }

  /** The position of the first expense with the given id. */
  function ExpenseIndex(expenses: seq<Expense>, expenseId: nat): (r: Option<nat>)
    ensures r.None? <==> forall i :: 0 <= i < |expenses| ==> expenses[i].id != expenseId
    ensures r.Some? ==> r.value < |expenses| && expenses[r.value].id == expenseId
  {
    if expenses == [] then None
    else if expenses[0].id == expenseId then Some(0)
    else
      var r := ExpenseIndex(expenses[1..], expenseId);
      if r.None? then None else Some(r.value + 1)
  }

  /** An id above every old one is found at the end it was appended to. */
  lemma {:induction false} ExpenseIndexAppended(expenses: seq<Expense>, x: Expense)
    requires forall y :: y in expenses ==> y.id < x.id
    ensures ExpenseIndex(expenses + [x], x.id) == Some(|expenses|)
  {
    if expenses != [] {
      assert (expenses + [x])[1..] == expenses[1..] + [x];
      ExpenseIndexAppended(expenses[1..], x);
    }
  }

  /** Every expense id of an event lies below `bound`. */
  predicate IdsBelow(e: Event, bound: nat) {
    forall x :: x in e.expenses ==> x.id < bound
  }

  /** The events collection. Ids of events and of expenses come from
      `nextId`, as a fresh ObjectId would. */
  class EventStore {
    var events: map<nat, Event>
    var nextId: nat

    /** Every event id and every expense id handed out so far lies below
        `nextId`. */
    ghost predicate Valid()
      reads this
    {
      (forall id :: id in events ==> id < nextId)
      && (forall id :: id in events ==> IdsBelow(events[id], nextId))
    }

    constructor ()
      ensures Valid() && events == map[]
    {
      events := map[];
      nextId := 0;
    }

    /** `createEvent`: the organizer is the caller whatever the body says. */
    method CreateEvent(body: EventBody, caller: Id, now: int) returns (r: Result<nat>)
      requires Valid()
      modifies this
      ensures Valid()
      ensures r.Err? <==> NewEvent(body, caller, old(nextId) + 1, now).Err?
      ensures r.Err? ==> events == old(events) && nextId == old(nextId)
      ensures r.Ok? ==> r.value == old(nextId) && r.value !in old(events)
                        && events == old(events)[r.value := NewEvent(body, caller, old(nextId) + 1, now).value]
                        && events[r.value].organizerId == caller
                        && nextId == old(nextId) + 1 + |body.expenses|
    {
      var created := NewEvent(body, caller, nextId + 1, now);
      if created.Err? {
        return Err(created.code, created.message);
      }
      r := Ok(nextId);
      events := events[nextId := created.value];
      nextId := nextId + 1 + |body.expenses|;
    }

    /** `updateEvent`: a find-and-update that runs no validators. */
    method UpdateEvent(id: nat, caller: Id, patch: EventPatch, now: int) returns (reply: Reply)
      requires Valid()
      modifies this
      ensures Valid()
      ensures reply.code == 404 <==> !Owned(old(events), id, caller)
      ensures reply.code == 200 <==> Owned(old(events), id, caller)
      ensures reply.code == 404 ==> events == old(events) && nextId == old(nextId)
      ensures reply.code == 200 ==> events == old(events)[id := ApplyPatch(old(events)[id], patch, old(nextId), now)]
                                    && nextId == old(nextId) + NewExpenseCount(patch)
    {
      if !Owned(events, id, caller) {
        return Reply(404, "Event not found or unauthorized");
      }
      events := events[id := ApplyPatch(events[id], patch, nextId, now)];
      nextId := nextId + NewExpenseCount(patch);
      reply := Reply(200, "Event updated");
    }

    /** Stores an edited owned event if it passes validation (`event.save()`). */
    method Save(id: nat, edited: Event) returns (reply: Reply)
      requires Valid() && id in events && IdsBelow(edited, nextId)
      modifies this
      ensures Valid() && nextId == old(nextId)
      ensures reply.code == 200 <==> ValidEvent(edited)
      ensures reply.code == 200 ==> events == old(events)[id := edited]
      ensures reply.code != 200 ==> reply.code == 500 && events == old(events)
    {
      if !ValidEvent(edited) {
        return Reply(500, "Validation failed");
      }
      events := events[id := edited];
      reply := Reply(200, "Saved");
    }

    /** `updateTickets`: replaces the tickets and sets the revenue to sold times
        price. */
    method UpdateTickets(id: nat, caller: Id, tickets: Tickets) returns (reply: Reply)
      requires Valid()
      modifies this
      ensures Valid() && nextId == old(nextId)
      ensures reply.code == 404 <==> !Owned(old(events), id, caller)
      ensures reply.code == 500 <==>
                Owned(old(events), id, caller) && !ValidEvent(old(events)[id].(tickets := tickets))
      ensures reply.code == 200 <==>
                Owned(old(events), id, caller) && ValidEvent(old(events)[id].(tickets := tickets))
      ensures reply.code != 200 ==> events == old(events)
      ensures reply.code == 200 ==>
                events == old(events)[id := old(events)[id].(tickets := tickets,
                                                             revenue := Some(tickets.totalSold * tickets.pricePerTicket))]
    {
      if !Owned(events, id, caller) {
        return Reply(404, "Event not found or unauthorized");
      }
      var e := events[id];
      reply := Save(id, e.(tickets := tickets, revenue := Some(tickets.totalSold * tickets.pricePerTicket)));
    }

    /** `addExpense`: appends exactly one expense, under an id no expense of
        the event had. */
    method AddExpense(id: nat, caller: Id, category: string, description: string, amount: real, now: int)
      returns (reply: Reply)
      requires Valid()
      modifies this
      ensures Valid()
      ensures reply.code == 404 <==> !Owned(old(events), id, caller)
      ensures reply.code == 500 <==> Owned(old(events), id, caller) && !ValidEvent(old(events)[id])
      ensures reply.code == 200 <==> Owned(old(events), id, caller) && ValidEvent(old(events)[id])
      ensures nextId == if Owned(old(events), id, caller) then old(nextId) + 1 else old(nextId)
      ensures reply.code != 200 ==> events == old(events)
      ensures reply.code == 200 ==>
                events == old(events)[id := old(events)[id].(expenses := old(events)[id].expenses +
                                                             [Expense(old(nextId), category, description, amount, now)])]
                && (forall x :: x in old(events)[id].expenses ==> x.id != old(nextId))
                && ExpenseIndex(events[id].expenses, old(nextId)) == Some(|old(events)[id].expenses|)
    {
      if !Owned(events, id, caller) {
        return Reply(404, "Event not found or unauthorized");
      }
      var e := events[id];
      var expenseId := nextId;
      var x := Expense(expenseId, category, description, amount, now);
      ExpenseIndexAppended(e.expenses, x);
      nextId := nextId + 1;
      reply := Save(id, e.(expenses := e.expenses + [x]));
    }

    /** `deleteExpense`: an unknown expense id fails (the lookup yields null and
        the removal throws) rather than succeeding silently. */
    method DeleteExpense(id: nat, caller: Id, expenseId: nat) returns (reply: Reply)
      requires Valid()
      modifies this
      ensures Valid() && nextId == old(nextId)
      ensures reply.code == 404 <==> !Owned(old(events), id, caller)
      ensures reply.code == 500 <==>
                Owned(old(events), id, caller)
                && (ExpenseIndex(old(events)[id].expenses, expenseId).None? || !ValidEvent(old(events)[id]))
      ensures reply.code == 200 <==>
                Owned(old(events), id, caller)
                && ExpenseIndex(old(events)[id].expenses, expenseId).Some? && ValidEvent(old(events)[id])
      ensures reply.code != 200 ==> events == old(events)
      ensures reply.code == 200 ==>
                var xs := old(events)[id].expenses;
                var k := ExpenseIndex(xs, expenseId);
                k.Some? && events == old(events)[id := old(events)[id].(expenses := xs[..k.value] + xs[k.value + 1..])]
    {
      if !Owned(events, id, caller) {
        return Reply(404, "Event not found or unauthorized");
      }
      var e := events[id];
      var k := ExpenseIndex(e.expenses, expenseId);
      if k.None? {
        return Reply(500, "Error deleting expense");
      }
      assert forall x :: x in e.expenses[..k.value] + e.expenses[k.value + 1..] ==> x in e.expenses;
      reply := Save(id, e.(expenses := e.expenses[..k.value] + e.expenses[k.value + 1..]));
    }

    /** `startVideoCall`. */
    method StartVideoCall(id: nat, caller: Id, now: int) returns (reply: Reply)
      requires Valid()
      modifies this
      ensures Valid() && nextId == old(nextId)
      ensures reply.code == 404 <==> !Owned(old(events), id, caller)
      ensures reply.code == 500 <==> Owned(old(events), id, caller) && !ValidEvent(old(events)[id])
      ensures reply.code == 200 <==> Owned(old(events), id, caller) && ValidEvent(old(events)[id])
      ensures reply.code != 200 ==> events == old(events)
      ensures reply.code == 200 ==>
                events == old(events)[id := old(events)[id].(videoCallActive := true, videoCallId := Some(CallId(id, now)))]
    {
      if !Owned(events, id, caller) {
        return Reply(404, "Event not found or unauthorized");
      }
      var e := events[id];
      reply := Save(id, e.(videoCallActive := true, videoCallId := Some(CallId(id, now))));
    }

    /** `endVideoCall`. */
    method EndVideoCall(id: nat, caller: Id) returns (reply: Reply)
      requires Valid()
      modifies this
      ensures Valid() && nextId == old(nextId)
      ensures reply.code == 404 <==> !Owned(old(events), id, caller)
      ensures reply.code == 500 <==> Owned(old(events), id, caller) && !ValidEvent(old(events)[id])
      ensures reply.code == 200 <==> Owned(old(events), id, caller) && ValidEvent(old(events)[id])
      ensures reply.code != 200 ==> events == old(events)
      ensures reply.code == 200 ==>
                events == old(events)[id := old(events)[id].(videoCallActive := false, videoCallId := None)]
    {
      if !Owned(events, id, caller) {
        return Reply(404, "Event not found or unauthorized");
      }
      var e := events[id];
      reply := Save(id, e.(videoCallActive := false, videoCallId := None));
    }
  }

  // ---------------------------------------------------------------------
  // Financial folds

  function SumAmounts(expenses: seq<Expense>): real {
    if expenses == [] then 0.0 else SumAmounts(expenses[..|expenses| - 1]) + expenses[|expenses| - 1].amount
  }

  /** Removing one expense lowers the total by its amount. */
  lemma {:induction false} SumWithout(expenses: seq<Expense>, k: nat)
    requires k < |expenses|
    ensures SumAmounts(expenses[..k] + expenses[k + 1..]) == SumAmounts(expenses) - expenses[k].amount
  {
    var n := |expenses|;
    if k == n - 1 {
      assert expenses[..k] + expenses[k + 1..] == expenses[..n - 1];
    } else {
      var init := expenses[..n - 1];
      SumWithout(init, k);
      assert expenses[..k] + expenses[k + 1..] == (init[..k] + init[k + 1..]) + [expenses[n - 1]];
      var rest := init[..k] + init[k + 1..];
      assert (rest + [expenses[n - 1]])[..|rest|] == rest;
    }
  }

  /** Appending an expense raises the total by its amount. */
  lemma SumWith(expenses: seq<Expense>, x: Expense)
    ensures SumAmounts(expenses + [x]) == SumAmounts(expenses) + x.amount
  {
    assert (expenses + [x])[..|expenses|] == expenses;
  }

  datatype Financials = Financials(revenue: Option<real>, totalExpenses: real, profit: real)

  /** `getFinancials`: the total of the expenses, and the revenue minus that
      total. A null revenue (`None`) subtracts as 0, as `null - total` does. */
  function GetFinancials(events: map<nat, Event>, id: nat, caller: Id): (r: Result<Financials>)
    ensures r.Err? <==> !Owned(events, id, caller)
    ensures r.Err? ==> r.code == 404
    ensures r.Ok? ==> r.value.revenue == events[id].revenue
                      && r.value.totalExpenses == SumAmounts(events[id].expenses)
                      && r.value.profit + r.value.totalExpenses == events[id].revenue.GetOr(0.0)
    ensures r.Ok? && events[id].revenue.None? ==> r.value.profit == -r.value.totalExpenses
  {
    if !Owned(events, id, caller) then Err(404, "Event not found or unauthorized")
    else
      var e := events[id];
      var total := SumAmounts(e.expenses);
      Ok(Financials(e.revenue, total, e.revenue.GetOr(0.0) - total))
  }

  datatype Summary = Summary(totalRevenue: real, totalExpenses: real, totalProfit: real)

  /** The reduce of `getFinancialSummary` over the caller's events; a missing
      revenue counts as 0. */
  function SummaryOf(events: seq<Event>): Summary {
    if events == [] then Summary(0.0, 0.0, 0.0)
    else
      var acc := SummaryOf(events[..|events| - 1]);
      var e := events[|events| - 1];
      var totalExpenses := SumAmounts(e.expenses);
      Summary(acc.totalRevenue + e.revenue.GetOr(0.0),
              acc.totalExpenses + totalExpenses,
              acc.totalProfit + (e.revenue.GetOr(0.0) - totalExpenses))
  }

  function OrganizedBy(caller: Id): Event -> bool {
    (e: Event) => e.organizerId == caller
  }

  /** `getFinancialSummary` over the stored events: the fold over exactly the
      caller's events, in stored order. */
  function GetFinancialSummary(stored: seq<Event>, caller: Id): (r: Summary)
    ensures r == SummaryOf(Filter(stored, OrganizedBy(caller)))
    ensures r.totalProfit == r.totalRevenue - r.totalExpenses
    ensures (forall e :: e in stored ==> e.organizerId != caller) ==> r == Summary(0.0, 0.0, 0.0)
  {
    var own := Filter(stored, OrganizedBy(caller));
    SummaryProfit(own);
    SummaryOf(own)
  }

  /** The total profit is the total revenue minus the total expenses. */
  lemma {:induction false} SummaryProfit(events: seq<Event>)
    ensures SummaryOf(events).totalProfit == SummaryOf(events).totalRevenue - SummaryOf(events).totalExpenses
  {
    if events != [] {
      SummaryProfit(events[..|events| - 1]);
    }
  }

  /** Summing per-event financials: a summary of one more event adds that
      event's `getFinancials` numbers. */
  lemma SummaryStep(events: seq<Event>, e: Event)
    ensures SummaryOf(events + [e]).totalExpenses == SummaryOf(events).totalExpenses + SumAmounts(e.expenses)
    ensures SummaryOf(events + [e]).totalRevenue == SummaryOf(events).totalRevenue + e.revenue.GetOr(0.0)
    ensures SummaryOf(events + [e]).totalProfit ==
              SummaryOf(events).totalProfit + GetFinancials(map[0 := e], 0, e.organizerId).value.profit
  {
    assert (events + [e])[..|events|] == events;
  }

  // ---------------------------------------------------------------------
  // Active events

  predicate IsActive(e: Event, now: int) {
    e.dateStart <= now && e.dateEnd >= now
  }

  function DateStart(e: Event): int {
    e.dateStart
  }

  function ActiveAt(now: int): Event -> bool {
    (e: Event) => IsActive(e, now)
  }

  /** `getActiveEvents`: the events running now, by ascending start. */
  function GetActiveEvents(stored: seq<Event>, now: int): (r: seq<Event>)
    ensures forall e :: e in r <==> e in stored && IsActive(e, now)
    ensures multiset(r) == multiset(Filter(stored, ActiveAt(now)))
    ensures forall i, j :: 0 <= i < j < |r| ==> r[i].dateStart <= r[j].dateStart
  {
    var r := SortBy(Filter(stored, ActiveAt(now)), DateStart);
    ActiveMembers(stored, now, r);
    ActiveOrder(r);
    r
  }

  lemma ActiveMembers(stored: seq<Event>, now: int, r: seq<Event>)
    requires multiset(r) == multiset(Filter(stored, ActiveAt(now)))
    ensures forall e :: e in r <==> e in stored && IsActive(e, now)
  {
    var active := Filter(stored, ActiveAt(now));
    forall e ensures e in r <==> e in active {
      assert e in r <==> e in multiset(r);
      assert e in active <==> e in multiset(active);
    }
  }

  lemma ActiveOrder(r: seq<Event>)
    requires SortedBy(r, DateStart)
    ensures forall i, j :: 0 <= i < j < |r| ==> r[i].dateStart <= r[j].dateStart
  {
    forall i, j | 0 <= i < j < |r| ensures r[i].dateStart <= r[j].dateStart {
      assert DateStart(r[i]) <= DateStart(r[j]);
    }
  }

  // ---------------------------------------------------------------------
  // Workers of an event

  datatype HiringJob = HiringJob(title: string, hiredPros: seq<Id>)

  /** A worker tagged with the title of a job that hired them. */
  datatype WorkerEntry = WorkerEntry(workerId: Id, jobTitle: string)

  function JobHires(job: HiringJob): (r: seq<WorkerEntry>)
    ensures |r| == |job.hiredPros|
    ensures forall k :: 0 <= k < |r| ==> r[k] == WorkerEntry(job.hiredPros[k], job.title)
  {
    Map(job.hiredPros, w => WorkerEntry(w, job.title))
  }

  /** Every hire of every job, job by job, in order. */
  function Hires(jobs: seq<HiringJob>): seq<WorkerEntry> {
    if jobs == [] then [] else Hires(jobs[..|jobs| - 1]) + JobHires(jobs[|jobs| - 1])
  }

  function WorkerIds(entries: seq<WorkerEntry>): set<Id> {
    set e | e in entries :: e.workerId
  }

  /** The first hire of each worker, in order of first appearance. */
  function Dedup(entries: seq<WorkerEntry>): seq<WorkerEntry> {
    if entries == [] then []
    else
      var d := Dedup(entries[..|entries| - 1]);
      var last := entries[|entries| - 1];
      if last.workerId in WorkerIds(d) then d else d + [last]
  }

  /** The index of the first entry for worker w, or -1. */
  function FirstAt(entries: seq<WorkerEntry>, w: Id): (r: int)
    ensures -1 <= r < |entries|
    ensures r >= 0 ==> entries[r].workerId == w
    ensures forall k :: 0 <= k < |entries| && (r < 0 || k < r) ==> entries[k].workerId != w
  {
    if entries == [] then -1
    else
      var f := FirstAt(entries[..|entries| - 1], w);
      if f >= 0 then f
      else if entries[|entries| - 1].workerId == w then |entries| - 1
      else -1
  }

  /** A worker is on the roster exactly when some job hired them. */
  lemma {:induction false} DedupIds(entries: seq<WorkerEntry>)
    ensures forall w :: w in WorkerIds(Dedup(entries)) <==> FirstAt(entries, w) >= 0
  {
    if entries != [] {
      var init := entries[..|entries| - 1];
      var last := entries[|entries| - 1];
      var d0 := Dedup(init);
      DedupIds(init);
      assert WorkerIds(d0 + [last]) == WorkerIds(d0) + {last.workerId};
    }
  }

  lemma FirstAtExtend(init: seq<WorkerEntry>, last: WorkerEntry, w: Id)
    ensures FirstAt(init + [last], w) ==
              if FirstAt(init, w) >= 0 then FirstAt(init, w) else if last.workerId == w then |init| else -1
  {
    assert (init + [last])[..|init|] == init;
  }

  /** Each roster entry is the first hire of its worker: it carries the title
      of the first job that hired them. */
  lemma {:induction false} DedupFirstHire(entries: seq<WorkerEntry>)
    ensures forall i :: 0 <= i < |Dedup(entries)| ==>
              FirstAt(entries, Dedup(entries)[i].workerId) >= 0
              && Dedup(entries)[i] == entries[FirstAt(entries, Dedup(entries)[i].workerId)]
  {
    if entries != [] {
      var init := entries[..|entries| - 1];
      var last := entries[|entries| - 1];
      assert entries == init + [last];
      var d0 := Dedup(init);
      DedupFirstHire(init);
      DedupIds(init);
      var d := Dedup(entries);
      forall i | 0 <= i < |d|
        ensures FirstAt(entries, d[i].workerId) >= 0 && d[i] == entries[FirstAt(entries, d[i].workerId)]
      {
        FirstAtExtend(init, last, d[i].workerId);
        if i < |d0| {
          assert d[i] == d0[i];
          assert FirstAt(init, d0[i].workerId) >= 0 && d0[i] == init[FirstAt(init, d0[i].workerId)];
        } else {
          assert d == d0 + [last] && d[i] == last;
          assert FirstAt(init, last.workerId) < 0;
        }
      }
    }
  }

  /** The roster keeps the order in which workers were first hired. */
  lemma {:induction false} DedupOrder(entries: seq<WorkerEntry>)
    ensures forall i, j :: 0 <= i < j < |Dedup(entries)| ==>
              FirstAt(entries, Dedup(entries)[i].workerId) < FirstAt(entries, Dedup(entries)[j].workerId)
  {
    if entries != [] {
      var init := entries[..|entries| - 1];
      var last := entries[|entries| - 1];
      assert entries == init + [last];
      var d0 := Dedup(init);
      DedupOrder(init);
      DedupFirstHire(init);
      DedupIds(init);
      var d := Dedup(entries);
      forall i, j | 0 <= i < j < |d|
        ensures FirstAt(entries, d[i].workerId) < FirstAt(entries, d[j].workerId)
      {
        FirstAtExtend(init, last, d[i].workerId);
        FirstAtExtend(init, last, d[j].workerId);
        assert d[i] == d0[i];
        assert 0 <= FirstAt(init, d0[i].workerId) < |init|;
        if j < |d0| {
          assert d[j] == d0[j];
          assert FirstAt(init, d0[i].workerId) < FirstAt(init, d0[j].workerId);
        } else {
          assert d == d0 + [last] && d[j] == last;
          assert FirstAt(init, last.workerId) < 0;
        }
      }
    }
  }

  lemma DedupStep(prefix: seq<WorkerEntry>, x: WorkerEntry)
    ensures Dedup(prefix + [x]) ==
              if x.workerId in WorkerIds(Dedup(prefix)) then Dedup(prefix) else Dedup(prefix) + [x]
    ensures WorkerIds(Dedup(prefix) + [x]) == WorkerIds(Dedup(prefix)) + {x.workerId}
  {
    assert (prefix + [x])[..|prefix|] == prefix;
  }

  /** One hire of the inner loop: the roster grows by the entry exactly when
      its worker is new. */
  lemma CollectStep(before: seq<WorkerEntry>, hires: seq<WorkerEntry>, j: nat)
    requires j < |hires|
    ensures Dedup(before + hires[..j + 1]) ==
              if hires[j].workerId in WorkerIds(Dedup(before + hires[..j])) then Dedup(before + hires[..j])
              else Dedup(before + hires[..j]) + [hires[j]]
    ensures WorkerIds(Dedup(before + hires[..j]) + [hires[j]]) ==
              WorkerIds(Dedup(before + hires[..j])) + {hires[j].workerId}
  {
    assert before + hires[..j + 1] == (before + hires[..j]) + [hires[j]];
    DedupStep(before + hires[..j], hires[j]);
  }

  lemma HiresStep(jobs: seq<HiringJob>, i: nat)
    requires i < |jobs|
    ensures Hires(jobs[..i + 1]) == Hires(jobs[..i]) + JobHires(jobs[i])
  {
    assert jobs[..i + 1][..i] == jobs[..i];
  }

  function WorkerIdsOf(jobs: seq<HiringJob>): set<Id> {
    WorkerIds(Dedup(Hires(jobs)))
  }

  /** The first loop of `getEventWorkers`: walks the jobs and their hires,
      keeping a set of the ids seen. */
  method CollectWorkers(jobs: seq<HiringJob>) returns (allWorkers: seq<WorkerEntry>, workerIds: set<Id>)
    ensures allWorkers == Dedup(Hires(jobs))
    ensures workerIds == WorkerIds(allWorkers)
  {
    allWorkers := [];
    workerIds := {};
    var i := 0;
    while i < |jobs|
      invariant 0 <= i <= |jobs|
      invariant allWorkers == Dedup(Hires(jobs[..i]))
      invariant workerIds == WorkerIds(allWorkers)
    {
      allWorkers, workerIds := CollectJob(jobs[i], allWorkers, workerIds, Hires(jobs[..i]));
      HiresStep(jobs, i);
      i := i + 1;
    }
    assert jobs[..i] == jobs;
  }

  /** The inner loop over one job's hires. */
  method CollectJob(job: HiringJob, allWorkers0: seq<WorkerEntry>, workerIds0: set<Id>, ghost before: seq<WorkerEntry>)
    returns (allWorkers: seq<WorkerEntry>, workerIds: set<Id>)
    requires allWorkers0 == Dedup(before) && workerIds0 == WorkerIds(allWorkers0)
    ensures allWorkers == Dedup(before + JobHires(job))
    ensures workerIds == WorkerIds(allWorkers)
  {
    allWorkers, workerIds := allWorkers0, workerIds0;
    ghost var hires := JobHires(job);
    var j := 0;
    assert before + hires[..0] == before;
    while j < |job.hiredPros|
      invariant 0 <= j <= |job.hiredPros|
      invariant allWorkers == Dedup(before + hires[..j])
      invariant workerIds == WorkerIds(allWorkers)
    {
      var worker := job.hiredPros[j];
      CollectStep(before, hires, j);
      assert hires[j] == WorkerEntry(worker, job.title);
      if worker !in workerIds {
        workerIds := workerIds + {worker};
        allWorkers := allWorkers + [WorkerEntry(worker, job.title)];
      }
      j := j + 1;
    }
    assert hires[..j] == hires;
  }

  datatype Session = Session(workerId: Id, eventId: Id, status: string, totalHours: real)

  function SumHours(sessions: seq<Session>): real {
    if sessions == [] then 0.0 else SumHours(sessions[..|sessions| - 1]) + sessions[|sessions| - 1].totalHours
  }

  function EventIds(sessions: seq<Session>): set<Id> {
    set s | s in sessions :: s.eventId
  }

  /** A worker has no more distinct events than sessions, and at least one
      when there is a session. */
  lemma {:induction false} EventIdsBound(sessions: seq<Session>)
    ensures |EventIds(sessions)| <= |sessions|
    ensures sessions != [] ==> |EventIds(sessions)| >= 1
  {
    if sessions != [] {
      var init := sessions[..|sessions| - 1];
      EventIdsBound(init);
      assert EventIds(sessions) == EventIds(init) + {sessions[|sessions| - 1].eventId};
      assert sessions[|sessions| - 1].eventId in EventIds(sessions);
    }
  }

  /** `Math.round(h * 100) / 100`: within half a hundredth of h. */
  function Round2(h: real): (r: real)
    ensures h - 0.005 < r <= h + 0.005
  {
    (Round(h * 100.0) as real) / 100.0
  }

  datatype WorkerSummary = WorkerSummary(workerId: Id, jobTitle: string, badge: string, totalHours: real, totalEvents: nat)

  function OfWorker(w: Id): Session -> bool {
    (s: Session) => s.workerId == w
  }

  /** The sessions the `WorkSession.find` of `getEventWorkers` returns. */
  function CheckedOutOf(ids: set<Id>): Session -> bool {
    (s: Session) => s.workerId in ids && s.status == "checked-out"
  }

  /** The per-worker aggregation over the checked-out sessions of the roster. */
  function Summarize(w: WorkerEntry, sessions: seq<Session>, badge: (real, nat) -> string): (r: WorkerSummary)
    ensures r.workerId == w.workerId && r.jobTitle == w.jobTitle
    ensures var own := Filter(sessions, OfWorker(w.workerId));
            r.totalEvents == |EventIds(own)| && r.totalHours == Round2(SumHours(own))
            && r.badge == badge(SumHours(own), |EventIds(own)|)
  {
    var own := Filter(sessions, OfWorker(w.workerId));
    var totalHours := SumHours(own);
    var eventIds := EventIds(own);
    WorkerSummary(w.workerId, w.jobTitle, badge(totalHours, |eventIds|), Round2(totalHours), |eventIds|)
  }

  /** `getEventWorkers`: the roster of the event's jobs, each worker with the
      hours and distinct events of their checked-out sessions. `stored` is
      the session collection; `badge` stands for `calculateBadge`. */
  method GetEventWorkers(jobs: seq<HiringJob>, stored: seq<Session>, badge: (real, nat) -> string)
    returns (workers: seq<WorkerSummary>, totalWorkers: nat)
    ensures totalWorkers == |workers| == |Dedup(Hires(jobs))|
    ensures forall i :: 0 <= i < |workers| ==>
              var own := Filter(stored, CheckedOutOf({workers[i].workerId}));
              workers[i].workerId == Dedup(Hires(jobs))[i].workerId
              && workers[i].jobTitle == Dedup(Hires(jobs))[i].jobTitle
              && workers[i].totalEvents == |EventIds(own)|
              && workers[i].totalHours == Round2(SumHours(own))
              && workers[i].badge == badge(SumHours(own), |EventIds(own)|)
  {
    var allWorkers, workerIds := CollectWorkers(jobs);
    var sessions := Filter(stored, CheckedOutOf(workerIds));
    workers := Map(allWorkers, w => Summarize(w, sessions, badge));
    totalWorkers := |workers|;
    forall i | 0 <= i < |workers|
      ensures Filter(sessions, OfWorker(workers[i].workerId)) == Filter(stored, CheckedOutOf({workers[i].workerId}))
    {
      var w := allWorkers[i];
      assert w.workerId in workerIds;
      FilterFilter(stored, CheckedOutOf(workerIds), OfWorker(w.workerId), CheckedOutOf({w.workerId}));
    }
  }
}

=== FILE: groupchat.dfy ===
/** Group chats tied to an event: creation by the event's organizer, messages
    from members, and membership changes by the group's owner (`createdBy`).
    Every operation keeps the owner among the participants. */
module GroupChat {
  import opened Wrappers
  import opened Text
  import opened Seqs

  type Id = string

  datatype Reply = Reply(code: int, message: string)

  datatype Message = Message(senderId: Id, text: string, kind: string, fileUrl: Option<string>, readBy: seq<Id>)

  /** A notification handed to `createNotification`. */
  datatype Notice = Notice(to: Id, title: string, text: string)

  /** The fields of an event that group creation reads. */
  datatype EventRef = EventRef(organizerId: Id, title: string)

  function SystemMessage(senderId: Id, text: string): Message {
    Message(senderId, text, "system", None, [])
  }

  const PreviewLength: nat := 50

  /** The notification text of a message: its first 50 characters, followed by
      "..." exactly when it is longer. */
  function Preview(text: string): (r: string)
    ensures |text| <= PreviewLength ==> r == text
    ensures |text| > PreviewLength ==> r == text[..PreviewLength] + "..."
    ensures r[..if |text| < PreviewLength then |text| else PreviewLength] <= text
  {
    Prefix(text, PreviewLength) + (if |text| > PreviewLength then "..." else "")
  }

  /** Everyone in the group but the sender, in participant order. */
  function OtherParticipants(participants: seq<Id>, sender: Id): (r: seq<Id>)
    ensures forall u :: u in r <==> u in participants && u != sender
  {
    Filter(participants, p => p != sender)
  }

  /** The requested ids that are not yet participants, in request order
      (duplicates in the request are kept). */
  function NewMembers(userIds: seq<Id>, participants: seq<Id>): (r: seq<Id>)
    ensures forall u :: u in r <==> u in userIds && u !in participants
  {
    Filter(userIds, id => id !in participants)
  }

  /** The checks of `createGroup` before it touches the store, in order. */
  function CreateCheck(name: string, eventId: Id, participants: Option<seq<Id>>,
                       events: map<Id, EventRef>, caller: Id): (r: Reply)
    ensures r.code == 201 <==>
              !IsBlank(name) && eventId != "" && participants.Some? && participants.value != []
              && eventId in events && events[eventId].organizerId == caller
    ensures IsBlank(name) ==> r == Reply(400, "Group name is required")
    ensures !IsBlank(name) && eventId == "" ==> r == Reply(400, "Event ID is required")
    ensures !IsBlank(name) && eventId != "" && (participants.None? || participants.value == []) ==>
              r == Reply(400, "At least one participant is required")
    ensures r.code == 404 <==>
              !IsBlank(name) && eventId != "" && participants.Some? && participants.value != []
              && eventId !in events
    ensures r.code == 403 <==>
              !IsBlank(name) && eventId != "" && participants.Some? && participants.value != []
              && eventId in events && events[eventId].organizerId != caller
  {
    if IsBlank(name) then Reply(400, "Group name is required")
    else if eventId == "" then Reply(400, "Event ID is required")
    else if participants.None? || participants.value == [] then Reply(400, "At least one participant is required")
    else if eventId !in events then Reply(404, "Event not found")
    else if events[eventId].organizerId != caller then Reply(403, "Only organizer can create group")
    else Reply(201, "Group created")
  }

  /** `getGroup`'s answer: 404 for no group, 403 for a non-member. */
  function Access(group: Group?, caller: Id): (code: int)
    reads group
    ensures code == 200 <==> group != null && caller in group.participants
    ensures code == 403 <==> group != null && caller !in group.participants
  {
    if group == null then 404
    else if caller !in group.participants then 403
    else 200
  }

  class Group {
    var name: string
    var eventId: Id
    var participants: seq<Id>
    var createdBy: Id
    var messages: seq<Message>
    var lastMessage: string
    var lastMessageAt: Option<int>

    /** The owner is a participant. */
    ghost predicate Valid()
      reads this
    {
      createdBy in participants
    }

    constructor (name: string, eventId: Id, participants: seq<Id>, createdBy: Id, welcome: Message)
      requires createdBy in participants
      ensures Valid()
      ensures this.name == name && this.eventId == eventId && this.participants == participants
      ensures this.createdBy == createdBy && messages == [welcome] && lastMessage == "" && lastMessageAt.None?
    {
      this.name := name;
      this.eventId := eventId;
      this.participants := participants;
      this.createdBy := createdBy;
      messages := [welcome];
      lastMessage := "";
      lastMessageAt := None;
    }
  }

  /** `createGroup`: the creator first, then the given participants as they
      are; one welcome system message. */
  method CreateGroup(name: string, eventId: Id, participants: Option<seq<Id>>,
                     events: map<Id, EventRef>, caller: Id)
    returns (reply: Reply, group: Group?)
    ensures reply == CreateCheck(name, eventId, participants, events, caller)
    ensures reply.code == 201 <==> group != null
    ensures group != null ==>
              fresh(group) && group.Valid()
              && group.participants == [caller] + participants.value
              && group.createdBy == caller
              && group.name == Trim(name) && group.eventId == eventId
              && |group.messages| == 1 && group.messages[0].kind == "system"
              && group.messages[0].senderId == caller
  {
    reply := CreateCheck(name, eventId, participants, events, caller);
    if reply.code != 201 {
      return reply, null;
    }
    var trimmed := Trim(name);
    var welcome := SystemMessage(caller, "Welcome to " + trimmed + "! This group was created for event: "
                                         + events[eventId].title);
    group := new Group(trimmed, eventId, [caller] + participants.value, caller, welcome);
  }

  /** `sendGroupMessage`: appends the message, read by its sender, and returns
      the notifications sent to the other participants. The message kind
      defaults to "text". */
  method SendGroupMessage(group: Group?, caller: Id, callerName: string, text: string,
                          kind: Option<string>, fileUrl: Option<string>, now: int)
    returns (reply: Reply, notices: seq<Notice>)
    requires group != null ==> group.Valid()
    modifies group
    ensures group != null ==> group.Valid()
    ensures reply.code == 400 <==> IsBlank(text)
    ensures reply.code == 404 <==> !IsBlank(text) && group == null
    ensures reply.code == 403 <==> !IsBlank(text) && group != null && caller !in old(group.participants)
    ensures reply.code == 200 <==> !IsBlank(text) && group != null && caller in old(group.participants)
    ensures reply.code != 200 ==> notices == [] && (group != null ==> unchanged(group))
    ensures reply.code == 200 ==>
              group != null
              && group.messages == old(group.messages) + [Message(caller, text, kind.GetOr("text"), fileUrl, [caller])]
              && group.lastMessage == text && group.lastMessageAt == Some(now)
              && group.participants == old(group.participants) && group.createdBy == old(group.createdBy)
              && |notices| == |OtherParticipants(group.participants, caller)|
              && forall i :: 0 <= i < |notices| ==>
                   notices[i].to == OtherParticipants(group.participants, caller)[i]
                   && notices[i].title == "New message in " + group.name
                   && notices[i].text == callerName + ": " + Preview(text)
  {
    notices := [];
    if IsBlank(text) {
      return Reply(400, "Message text is required"), [];
    }
    if group == null {
      return Reply(404, "Group not found"), [];
    }
    if caller !in group.participants {
      return Reply(403, "Not a member of this group"), [];
    }
    group.messages := group.messages + [Message(caller, text, kind.GetOr("text"), fileUrl, [caller])];
    group.lastMessage := text;
    group.lastMessageAt := Some(now);
    var others := OtherParticipants(group.participants, caller);
    var groupName := group.name;
    notices := Map(others, (p: Id) => Notice(p, "New message in " + groupName, callerName + ": " + Preview(text)));
    reply := Reply(200, "Message sent");
  }

  /** `addMembers`: only the owner; appends the requested ids that are not yet
      members, or answers 400 when there are none. `addedNames` are the names
      the user collection returns for them. */
  method AddMembers(group: Group?, caller: Id, userIds: Option<seq<Id>>, addedNames: seq<string>)
    returns (reply: Reply, notices: seq<Notice>)
    requires group != null ==> group.Valid()
    modifies group
    ensures group != null ==> group.Valid()
    ensures reply.code == 400 <==>
              userIds.None? || userIds.value == []
              || (group != null && old(group.createdBy) == caller
                  && NewMembers(userIds.value, old(group.participants)) == [])
    ensures reply.code == 404 <==> userIds.Some? && userIds.value != [] && group == null
    ensures reply.code == 403 <==> userIds.Some? && userIds.value != [] && group != null && old(group.createdBy) != caller
    ensures reply.code == 200 <==>
              userIds.Some? && userIds.value != [] && group != null && old(group.createdBy) == caller
              && NewMembers(userIds.value, old(group.participants)) != []
    ensures reply.code != 200 ==> notices == [] && (group != null ==> unchanged(group))
    ensures reply.code == 200 ==>
              group != null
              && group.participants == old(group.participants) + NewMembers(userIds.value, old(group.participants))
              && group.createdBy == old(group.createdBy)
              && group.messages == old(group.messages) +
                   [SystemMessage(caller, Join(addedNames, ", ") + " " + (if |addedNames| > 1 then "were" else "was")
                                          + " added to the group")]
              && |notices| == |NewMembers(userIds.value, old(group.participants))|
              && forall i :: 0 <= i < |notices| ==>
                   notices[i] == Notice(NewMembers(userIds.value, old(group.participants))[i], "Added to Group",
                                        "You were added to " + group.name)
  {
    notices := [];
    if userIds.None? || userIds.value == [] {
      return Reply(400, "User IDs array is required"), [];
    }
    if group == null {
      return Reply(404, "Group not found"), [];
    }
    if group.createdBy != caller {
      return Reply(403, "Only group creator can add members"), [];
    }
    var newMembers := NewMembers(userIds.value, group.participants);
    if newMembers == [] {
      return Reply(400, "All users are already members"), [];
    }
    group.participants := group.participants + newMembers;
    var verb := if |addedNames| > 1 then "were" else "was";
    group.messages := group.messages + [SystemMessage(caller, Join(addedNames, ", ") + " " + verb + " added to the group")];
    var groupName := group.name;
    notices := Map(newMembers, (u: Id) => Notice(u, "Added to Group", "You were added to " + groupName));
    reply := Reply(200, "Members added successfully");
  }

  /** The name in the removal message: the member's name, or "A member" when
      the id is not a participant or has no name. */
  function RemovedName(participants: seq<Id>, names: map<Id, string>, userId: Id): (r: string)
    ensures userId !in participants ==> r == "A member"
    ensures userId in participants && userId in names && names[userId] != "" ==> r == names[userId]
  {
    if userId in participants && userId in names && names[userId] != "" then names[userId] else "A member"
  }

  /** `removeMember`: only the owner, never the owner; drops every entry with
      that id and appends one system message. */
  method RemoveMember(group: Group?, caller: Id, userId: Id, names: map<Id, string>)
    returns (reply: Reply, notices: seq<Notice>)
    requires group != null ==> group.Valid()
    modifies group
    ensures group != null ==> group.Valid()
    ensures reply.code == 404 <==> group == null
    ensures reply.code == 403 <==> group != null && old(group.createdBy) != caller
    ensures reply.code == 400 <==> group != null && old(group.createdBy) == caller && userId == caller
    ensures reply.code == 200 <==> group != null && old(group.createdBy) == caller && userId != caller
    ensures reply.code != 200 ==> notices == [] && (group != null ==> unchanged(group))
    ensures reply.code == 200 ==>
              group != null
              && group.participants == Filter(old(group.participants), p => p != userId)
              && userId !in group.participants
              && group.createdBy == old(group.createdBy)
              && group.messages == old(group.messages) +
                   [SystemMessage(caller, RemovedName(old(group.participants), names, userId) + " was removed from the group")]
              && notices == [Notice(userId, "Removed from Group", "You were removed from " + group.name)]
  {
    notices := [];
    if group == null {
      return Reply(404, "Group not found"), [];
    }
    if group.createdBy != caller {
      return Reply(403, "Only group creator can remove members"), [];
    }
    if userId == group.createdBy {
      return Reply(400, "Cannot remove group owner"), [];
    }
    var who := RemovedName(group.participants, names, userId);
    group.participants := Filter(group.participants, p => p != userId);
    group.messages := group.messages + [SystemMessage(caller, who + " was removed from the group")];
    notices := [Notice(userId, "Removed from Group", "You were removed from " + group.name)];
    reply := Reply(200, "Member removed successfully");
  }

  /** `leaveGroup`: anyone but the owner; removes exactly the caller. */
  method LeaveGroup(group: Group?, caller: Id, callerName: string) returns (reply: Reply)
    requires group != null ==> group.Valid()
    modifies group
    ensures group != null ==> group.Valid()
    ensures reply.code == 404 <==> group == null
    ensures reply.code == 400 <==> group != null && old(group.createdBy) == caller
    ensures reply.code == 200 <==> group != null && old(group.createdBy) != caller
    ensures reply.code != 200 ==> group != null ==> unchanged(group)
    ensures reply.code == 200 ==>
              group != null
              && group.participants == Filter(old(group.participants), p => p != caller)
              && (forall u :: u in group.participants <==> u in old(group.participants) && u != caller)
              && group.createdBy == old(group.createdBy)
              && group.messages == old(group.messages) + [SystemMessage(caller, callerName + " left the group")]
  {
    if group == null {
      return Reply(404, "Group not found");
    }
    if group.createdBy == caller {
      return Reply(400, "Group owner cannot leave. Transfer ownership first.");
    }
    group.participants := Filter(group.participants, p => p != caller);
    group.messages := group.messages + [SystemMessage(caller, callerName + " left the group")];
    reply := Reply(200, "Left group successfully");
  }

  /** `transferOwnership`: only the owner, only to a member; the participants
      stay as they are. */
  method TransferOwnership(group: Group?, caller: Id, newOwnerId: Id, oldName: string, newName: string)
    returns (reply: Reply, notices: seq<Notice>)
    requires group != null ==> group.Valid()
    modifies group
    ensures group != null ==> group.Valid()
    ensures reply.code == 400 <==>
              newOwnerId == "" || (group != null && old(group.createdBy) == caller && newOwnerId !in old(group.participants))
    ensures reply.code == 404 <==> newOwnerId != "" && group == null
    ensures reply.code == 403 <==> newOwnerId != "" && group != null && old(group.createdBy) != caller
    ensures reply.code == 200 <==>
              newOwnerId != "" && group != null && old(group.createdBy) == caller && newOwnerId in old(group.participants)
    ensures reply.code != 200 ==> notices == [] && (group != null ==> unchanged(group))
    ensures reply.code == 200 ==>
              group != null
              && group.createdBy == newOwnerId
              && group.participants == old(group.participants)
              && group.messages == old(group.messages) +
                   [SystemMessage(caller, oldName + " transferred group ownership to " + newName)]
              && notices == [Notice(newOwnerId, "Group Ownership Transferred", "You are now the owner of " + group.name)]
  {
    notices := [];
    if newOwnerId == "" {
      return Reply(400, "New owner ID is required"), [];
    }
    if group == null {
      return Reply(404, "Group not found"), [];
    }
    if group.createdBy != caller {
      return Reply(403, "Only group owner can transfer ownership"), [];
    }
    if newOwnerId !in group.participants {
      return Reply(400, "New owner must be a group member"), [];
    }
    group.createdBy := newOwnerId;
    group.messages := group.messages + [SystemMessage(caller, oldName + " transferred group ownership to " + newName)];
    notices := [Notice(newOwnerId, "Group Ownership Transferred", "You are now the owner of " + group.name)];
    reply := Reply(200, "Ownership transferred successfully");
  }
}

=== FILE: matching.dfy ===
/** The job match scorer: every job gets a score from 0 to 100 built from four
    additive factors (skills 60, distance 20, experience 10, rating 10), and the
    jobs are returned sorted by descending score, ties in input order. */
module Matching {
  import opened Wrappers
  import opened Text
  import opened Seqs
  import opened Sorting
  import opened Numbers

  /** A location object; lat and lng may be missing. */
  datatype Location = Location(lat: Option<real>, lng: Option<real>)

  /** The scorer's view of the stored profile document: only the fields it
      reads, with `ratingAvg` optional because the document may lack it.
      `skills` is `[]` when the field is missing (`profile.skills || []`). */
  datatype ScoringProfile = ScoringProfile(
    skills: seq<string>,
    location: Option<Location>,
    experience: Option<string>,
    ratingAvg: Option<real>)

  /** The fields of a job the scorer reads; `requiredSkills` is `[]` when
      missing. `id` stands for the rest of the document. */
  datatype Job = Job(
    id: string,
    requiredSkills: seq<string>,
    location: Option<Location>,
    experienceLevel: Option<string>)

  /** A job with the `matchScore` attached. */
  datatype Scored = Scored(job: Job, matchScore: int)

  /** What the scorer returns: the input untouched, or the scored jobs. */
  datatype Ranking = Unscored(jobs: seq<Job>) | Ranked(scored: seq<Scored>)

  /** Great-circle distance in km from (lat1, lng1) to (lat2, lng2); its
      trigonometry is not modelled. */
  type Haversine = (real, real, real, real) -> real

  /** Two-way, case-insensitive substring match of one user skill with one
      required skill. */
  predicate SkillsOverlap(userSkill: string, skill: string) {
    Contains(Lower(userSkill), Lower(skill)) || Contains(Lower(skill), Lower(userSkill))
  }

  predicate SkillMatched(userSkills: seq<string>, skill: string) {
    exists u | u in userSkills :: SkillsOverlap(u, skill)
  }

  /** The required skills some user skill matches, in order. */
  function MatchingSkills(jobSkills: seq<string>, userSkills: seq<string>): (r: seq<string>)
    ensures |r| <= |jobSkills|
    ensures forall s :: s in r <==> s in jobSkills && SkillMatched(userSkills, s)
  {
    Filter(jobSkills, s => SkillMatched(userSkills, s))
  }

  /** Skill factor, weight 60: the matched fraction of the required skills;
      0 when either list is empty. */
  function SkillScore(jobSkills: seq<string>, userSkills: seq<string>): real {
    if |jobSkills| > 0 && |userSkills| > 0 then
      (|MatchingSkills(jobSkills, userSkills)| as real / |jobSkills| as real) * 60.0
    else 0.0
  }

  lemma SkillScoreBounds(jobSkills: seq<string>, userSkills: seq<string>)
    ensures 0.0 <= SkillScore(jobSkills, userSkills) <= 60.0
    ensures |jobSkills| > 0 && |userSkills| > 0 ==>
            SkillScore(jobSkills, userSkills) * |jobSkills| as real ==
            60.0 * |MatchingSkills(jobSkills, userSkills)| as real
    ensures |jobSkills| == 0 || |userSkills| == 0 ==> SkillScore(jobSkills, userSkills) == 0.0
  {
    if |jobSkills| > 0 && |userSkills| > 0 {
      var m := |MatchingSkills(jobSkills, userSkills)| as real;
      var n := |jobSkills| as real;
      assert m / n <= 1.0 by {
        assert m <= n;
      }
    }
  }

  /** Every required skill is matched exactly when the skill factor is full. */
  lemma SkillScoreFull(jobSkills: seq<string>, userSkills: seq<string>)
    requires |jobSkills| > 0 && |userSkills| > 0
    ensures SkillScore(jobSkills, userSkills) == 60.0 <==>
            |MatchingSkills(jobSkills, userSkills)| == |jobSkills|
  {
    SkillScoreBounds(jobSkills, userSkills);
  }

  /** The distance between the two locations, None when either location is
      missing or a coordinate is missing (the result would be NaN). */
  function Distance(from: Option<Location>, to: Option<Location>, haversine: Haversine): Option<real> {
    if from.None? || to.None? then None
    else if from.value.lat.None? || from.value.lng.None? || to.value.lat.None? || to.value.lng.None? then None
    else Some(haversine(from.value.lat.value, from.value.lng.value, to.value.lat.value, to.value.lng.value))
  }

  /** Distance factor, weight 20: 20 up to 10 km, 15 up to 25 km, 10 up to
      50 km, else 0; 0 when no distance can be computed. */
  function DistanceScore(d: Option<real>): (r: real)
    ensures d.None? ==> r == 0.0
    ensures d.Some? ==> (r == 20.0 <==> d.value <= 10.0)
    ensures d.Some? ==> (r == 15.0 <==> 10.0 < d.value <= 25.0)
    ensures d.Some? ==> (r == 10.0 <==> 25.0 < d.value <= 50.0)
    ensures r == 0.0 <==> d.None? || d.value > 50.0
  {
    match d
    case None => 0.0
    case Some(km) =>
      if km <= 10.0 then 20.0
      else if km <= 25.0 then 15.0
      else if km <= 50.0 then 10.0
      else 0.0
  }

  /** Experience factor, weight 10: the profile's experience contains the job's
      experience level, case-insensitively, both being non-empty. */
  function ExperienceScore(experience: Option<string>, level: Option<string>): (r: real)
    ensures r == 10.0 <==>
            Truthy(experience) && Truthy(level) && Contains(Lower(experience.value), Lower(level.value))
    ensures r == 0.0 || r == 10.0
  {
    if Truthy(experience) && Truthy(level) && Contains(Lower(experience.value), Lower(level.value))
    then 10.0 else 0.0
  }

  /** Rating factor, weight 10: 10 from 4 up, 5 from 3 up, else (or when the
      rating is missing) 0. */
  function RatingScore(ratingAvg: Option<real>): (r: real)
    ensures r == 10.0 <==> ratingAvg.Some? && ratingAvg.value >= 4.0
    ensures r == 5.0 <==> ratingAvg.Some? && 3.0 <= ratingAvg.value < 4.0
    ensures r == 0.0 <==> ratingAvg.None? || ratingAvg.value < 3.0
  {
    match ratingAvg
    case None => 0.0
    case Some(v) => if v >= 4.0 then 10.0 else if v >= 3.0 then 5.0 else 0.0
  }

  /** The sum of the four factors before rounding. */
  function RawScore(p: ScoringProfile, j: Job, haversine: Haversine): real {
    SkillScore(j.requiredSkills, p.skills)
    + DistanceScore(Distance(p.location, j.location, haversine))
    + ExperienceScore(p.experience, j.experienceLevel)
    + RatingScore(p.ratingAvg)
  }

  /** `Math.min(Math.round(score), 100)`. */
  function MatchScore(p: ScoringProfile, j: Job, haversine: Haversine): int {
    var r := Round(RawScore(p, j, haversine));
    if r < 100 then r else 100
  }

  /** Every score is an integer from 0 to 100, and the clamp at 100 never
      changes it: it is the rounded sum of the factors. */
  lemma MatchScoreBounds(p: ScoringProfile, j: Job, haversine: Haversine)
    ensures 0 <= MatchScore(p, j, haversine) <= 100
    ensures MatchScore(p, j, haversine) == Round(RawScore(p, j, haversine))
  {
    SkillScoreBounds(j.requiredSkills, p.skills);
    var raw := RawScore(p, j, haversine);
    assert 0.0 <= raw <= 100.0;
    assert Round(raw) <= 100 by {
      assert Round(raw) as real <= raw + 0.5 <= 100.5;
    }
  }

  function ScoreAll(p: ScoringProfile, jobs: seq<Job>, haversine: Haversine): (r: seq<Scored>)
    ensures |r| == |jobs|
    ensures forall i :: 0 <= i < |jobs| ==> r[i] == Scored(jobs[i], MatchScore(p, jobs[i], haversine))
  {
    Map(jobs, j => Scored(j, MatchScore(p, j, haversine)))
  }

  /** The sort key of the comparator `(b.matchScore || 0) - (a.matchScore || 0)`:
      ascending in the negated score is descending in the score. */
  function NegatedScore(s: Scored): int {
    -s.matchScore
  }

  /** `calculateMatchScores`. `profile` is the outcome of the profile lookup:
      a failure, no profile, or the profile. */
  function CalculateMatchScores(jobs: seq<Job>, profile: Result<Option<ScoringProfile>>, haversine: Haversine): (r: Ranking)
    ensures profile.Err? || profile.value.None? ==> r == Unscored(jobs)
    ensures profile.Ok? && profile.value.Some? ==> r.Ranked? && |r.scored| == |jobs|
  {
    match profile
    case Err(_, _) => Unscored(jobs)
    case Ok(None) => Unscored(jobs)
    case Ok(Some(p)) => Ranked(SortBy(ScoreAll(p, jobs, haversine), NegatedScore))
  }

  /** The scored jobs sorted by the comparator. */
  function RankJobs(p: ScoringProfile, jobs: seq<Job>, haversine: Haversine): (r: seq<Scored>)
    ensures CalculateMatchScores(jobs, Ok(Some(p)), haversine) == Ranked(r)
  {
    SortBy(ScoreAll(p, jobs, haversine), NegatedScore)
  }

  /** With a profile, the result holds exactly the input jobs, each with its
      own score (as a multiset), and every score lies in 0..100. */
  lemma RankedContents(jobs: seq<Job>, p: ScoringProfile, haversine: Haversine)
    ensures multiset(RankJobs(p, jobs, haversine)) == multiset(ScoreAll(p, jobs, haversine))
    ensures forall e :: e in RankJobs(p, jobs, haversine) ==>
              e.matchScore == MatchScore(p, e.job, haversine) && 0 <= e.matchScore <= 100
  {
    var input := ScoreAll(p, jobs, haversine);
    var r := RankJobs(p, jobs, haversine);
    forall e | e in r
      ensures e.matchScore == MatchScore(p, e.job, haversine) && 0 <= e.matchScore <= 100
    {
      assert e in multiset(input);
      var k :| 0 <= k < |input| && input[k] == e;
      MatchScoreBounds(p, jobs[k], haversine);
    }
  }

  /** With a profile, the scores in the result never increase. */
  lemma RankedDescending(jobs: seq<Job>, p: ScoringProfile, haversine: Haversine)
    ensures var r := RankJobs(p, jobs, haversine);
            forall i, j :: 0 <= i < j < |r| ==> r[i].matchScore >= r[j].matchScore
  {
    var r := RankJobs(p, jobs, haversine);
    forall i, j | 0 <= i < j < |r| ensures r[i].matchScore >= r[j].matchScore {
      assert NegatedScore(r[i]) <= NegatedScore(r[j]);
    }
  }

  /** With a profile, jobs with equal scores keep their input order: for every
      score, the jobs carrying it appear in the result as in the input. */
  lemma RankedStable(jobs: seq<Job>, p: ScoringProfile, haversine: Haversine, score: int)
    ensures WithKey(RankJobs(p, jobs, haversine), NegatedScore, -score) ==
            WithKey(ScoreAll(p, jobs, haversine), NegatedScore, -score)
  {
    SortStable(ScoreAll(p, jobs, haversine), NegatedScore, -score);
  }
}

=== FILE: numbers.dfy ===
/** The rounding the system performs on numbers. */
module Numbers {

  /** `Math.round`: the nearest integer, halves rounding up. */
  function Round(x: real): (r: int)
    ensures r as real <= x + 0.5 < r as real + 1.0
  {
    (x + 0.5).Floor
  }
}

=== FILE: organizerdashboard.dfy ===
/** The organizer dashboard's job counters. */
module OrganizerDashboard {
  import opened Wrappers
  import opened Seqs

  datatype Job = Job(title: string, status: string)

  datatype Stats = Stats(total: nat, open: nat, inProgress: nat, completed: nat)

  const InitialStats: Stats := Stats(0, 0, 0, 0)

  /** `jobsList.filter(j => j.status === status).length`. */
  function CountStatus(jobs: seq<Job>, status: string): (r: nat)
    ensures r <= |jobs|
  {
    |Filter(jobs, (j: Job) => j.status == status)|
  }

  /** The counters of a fetched list. */
  function StatsOf(jobs: seq<Job>): (r: Stats)
    ensures r.total == |jobs|
    ensures r.open == CountStatus(jobs, "open")
    ensures r.inProgress == CountStatus(jobs, "in-progress")
    ensures r.completed == CountStatus(jobs, "completed")
  {
    Stats(|jobs|, CountStatus(jobs, "open"), CountStatus(jobs, "in-progress"), CountStatus(jobs, "completed"))
  }

  /** A job has one status, so the three counters never exceed the total. */
  lemma {:induction false} CountersWithinTotal(jobs: seq<Job>)
    ensures StatsOf(jobs).open + StatsOf(jobs).inProgress + StatsOf(jobs).completed <= StatsOf(jobs).total
  {
    if jobs != [] {
      CountersWithinTotal(jobs[1..]);
    }
  }

  /** A counter counts exactly the jobs with its status: one more job of that
      status raises it by one, a job of another status leaves it. */
  lemma CountStatusStep(jobs: seq<Job>, j: Job, status: string)
    ensures CountStatus([j] + jobs, status) == CountStatus(jobs, status) + (if j.status == status then 1 else 0)
  {
    assert ([j] + jobs)[1..] == jobs;
  }

  /** The page state after `fetchJobs`. */
  datatype Dashboard = Dashboard(jobs: seq<Job>, stats: Stats)

  /** `fetchJobs`: on success the list and its counters; on a failed request
      (`None`) an empty list and the counters as they were. A response
      without `jobs` counts as an empty list. */
  function FetchJobs(response: Option<Option<seq<Job>>>, previous: Stats): (r: Dashboard)
    ensures response.None? ==> r.jobs == [] && r.stats == previous
    ensures response.Some? ==> r.jobs == response.value.GetOr([]) && r.stats == StatsOf(r.jobs)
  {
    match response
    case None => Dashboard([], previous)
    case Some(body) => Dashboard(body.GetOr([]), StatsOf(body.GetOr([])))
  }
}

=== FILE: profilemodel.dfy ===
/** The Profile document: its fields, the creation defaults and the
    validators a save runs. */
module ProfileModel {
  import opened Wrappers

  type Id = string

  const BioMaxLength: nat := 500

  /** The availability enumeration. */
  predicate ValidAvailability(a: string) {
    a == "full-time" || a == "part-time" || a == "weekends" || a == "flexible"
  }

  const DefaultAvailability: string := "flexible"

  datatype Window = Window(dayOfWeek: Option<int>, startTime: Option<string>, endTime: Option<string>)

  /** A sub-document of a profile section, with its id and its other fields. */
  datatype Item = Item(id: nat, fields: map<string, string>)

  datatype Profile = Profile(
    userId: Id,
    skills: seq<string>,
    bio: Option<string>,
    city: Option<string>,
    availability: string,
    availabilityWindows: seq<Window>,
    hourlyRate: Option<real>,
    experience: Option<string>,
    sections: map<string, seq<Item>>)

  /** A window's day, when given, is 0 (Sunday) to 6. */
  predicate ValidWindow(w: Window) {
    w.dayOfWeek.Some? ==> 0 <= w.dayOfWeek.value <= 6
  }

  /** Everything a save checks of one document: every skill present, the bio
      length, the availability enumeration, the window days and a
      non-negative rate. */
  predicate ValidProfile(p: Profile) {
    (forall k :: 0 <= k < |p.skills| ==> p.skills[k] != "")
    && (p.bio.Some? ==> |p.bio.value| <= BioMaxLength)
    && ValidAvailability(p.availability)
    && (forall k :: 0 <= k < |p.availabilityWindows| ==> ValidWindow(p.availabilityWindows[k]))
    && (p.hourlyRate.Some? ==> p.hourlyRate.value >= 0.0)
  }

  /** The unique index on userId, over a whole collection. */
  predicate UniqueUsers(profiles: seq<Profile>) {
    forall i, j :: 0 <= i < j < |profiles| ==> profiles[i].userId != profiles[j].userId
  }

  /** The sub-document arrays the section routes edit. */
  const SectionNames: set<string> := {"workExperience", "education", "portfolio", "certifications"}

  /** A new document as the schema in Profile.js builds it: the availability
      default, and no section arrays at all, since the schema declares none. */
  function SchemaEmptyProfile(userId: Id): (r: Profile)
    ensures ValidProfile(r) && r.availability == DefaultAvailability
    ensures r.userId == userId && r.sections == map[]
  {
    Profile(userId, [], None, None, DefaultAvailability, [], None, None, map[])
  }

  /** A new document with the four section arrays declared, each starting
      empty, as the section routes evidently expect. */
  function EmptyProfile(userId: Id): (r: Profile)
    ensures ValidProfile(r) && r.availability == DefaultAvailability
    ensures r.userId == userId && r.sections.Keys == SectionNames
    ensures forall s :: s in r.sections ==> r.sections[s] == []
  {
    SchemaEmptyProfile(userId).(sections := map s | s in SectionNames :: [])
  }

  /** The position of the profile of a user. */
  function IndexOfUser(profiles: seq<Profile>, userId: Id): (r: Option<nat>)
    ensures r.None? <==> forall k :: 0 <= k < |profiles| ==> profiles[k].userId != userId
    ensures r.Some? ==> r.value < |profiles| && profiles[r.value].userId == userId
  {
    if profiles == [] then None
    else if profiles[0].userId == userId then Some(0)
    else
      var r := IndexOfUser(profiles[1..], userId);
      if r.None? then None else Some(r.value + 1)
  }

  /** Under the unique index, the profile of a user is the only one with that
      userId. */
  lemma OneProfilePerUser(profiles: seq<Profile>, userId: Id, k: nat)
    requires UniqueUsers(profiles) && k < |profiles| && profiles[k].userId == userId
    ensures IndexOfUser(profiles, userId) == Some(k)
  {
  }
}

=== FILE: profiles.dfy ===
/** The profile controller: section editing, the upsert and the talent
    search. */
module Profiles {
  import opened Wrappers
  import opened Text
  import opened Seqs
  import opened ProfileModel

  /** The request data of a section edit: the item id from the route (which
      an add has not, and ignores) and the other fields of the body. */
  datatype ItemData = ItemData(id: nat, fields: map<string, string>)

  /** The position of the first item with the given id. */
  function ItemIndex(items: seq<Item>, id: nat): (r: Option<nat>)
    ensures r.None? <==> forall k :: 0 <= k < |items| ==> items[k].id != id
    ensures r.Some? ==> r.value < |items| && items[r.value].id == id
    ensures r.Some? ==> forall k :: 0 <= k < r.value ==> items[k].id != id
  {
    if items == [] then None
    else if items[0].id == id then Some(0)
    else
      var r := ItemIndex(items[1..], id);
      if r.None? then None else Some(r.value + 1)
  }

  /** `Object.assign(item, data)`: the given fields win, the others stay. */
  function Merge(item: Item, fields: map<string, string>): (r: Item)
    ensures r.id == item.id
    ensures r.fields.Keys == item.fields.Keys + fields.Keys
    ensures forall f :: f in fields ==> r.fields[f] == fields[f]
    ensures forall f :: f in item.fields && f !in fields ==> r.fields[f] == item.fields[f]
  {
    Item(item.id, item.fields + fields)
  }

  /** `pull(id)`: every item with that id goes, the rest stay in order. */
  function Pull(items: seq<Item>, id: nat): (r: seq<Item>)
    ensures forall it :: it in r <==> it in items && it.id != id
    ensures IsSubsequence(r, items)
    ensures (forall k :: 0 <= k < |items| ==> items[k].id != id) ==> r == items
  {
    var r := Filter(items, (it: Item) => it.id != id);
    FilterIsSubsequence(items, (it: Item) => it.id != id);
    assert (forall k :: 0 <= k < |items| ==> items[k].id != id) ==> r == items by {
      if forall k :: 0 <= k < |items| ==> items[k].id != id {
        FilterAll(items, (it: Item) => it.id != id);
      }
    }
    r
  }

  const Actions: set<string> := {"add", "update", "delete"}

  /** The switch of `manageProfileSection` on a found profile: `add` appends
      the body as a new item with a fresh id, `update` merges the body into
      the item with the id, `delete` pulls the id. A section the document
      lacks makes the array call throw. */
  function EditSection(p: Profile, section: string, action: string, data: ItemData, freshId: nat): (r: Result<Profile>)
    ensures r.Err? ==> r.code == 500
    ensures action !in Actions ==> r == Err(500, "Invalid action")
    ensures action in Actions && section !in p.sections ==> r.Err?
    ensures action == "update" && section in p.sections ==>
              (r.Err? <==> ItemIndex(p.sections[section], data.id).None?)
              && (r.Err? ==> r.message == "Item not found")
    ensures action in {"add", "delete"} && section in p.sections ==> r.Ok?
    ensures r.Ok? ==>
              var items := p.sections[section];
              section in p.sections && section in r.value.sections
              && r.value == p.(sections := p.sections[section := r.value.sections[section]])
              && (action == "add" ==> r.value.sections[section] == items + [Item(freshId, data.fields)])
              && (action == "update" ==>
                    ItemIndex(items, data.id).Some?
                    && var j := ItemIndex(items, data.id).value;
                       r.value.sections[section] == items[j := Merge(items[j], data.fields)])
              && (action == "delete" ==> r.value.sections[section] == Pull(items, data.id))
  {
    if action !in Actions then Err(500, "Invalid action")
    else if section !in p.sections then Err(500, "Cannot read properties of undefined")
    else
      var items := p.sections[section];
      if action == "add" then
        Ok(p.(sections := p.sections[section := items + [Item(freshId, data.fields)]]))
      else if action == "update" then
        var j := ItemIndex(items, data.id);
        if j.None? then Err(500, "Item not found")
        else Ok(p.(sections := p.sections[section := items[j.value := Merge(items[j.value], data.fields)]]))
      else
        Ok(p.(sections := p.sections[section := Pull(items, data.id)]))
  }

  /** Item ids of a profile are below the next fresh id. */
  predicate IdsBelow(p: Profile, bound: nat) {
    forall s, k :: s in p.sections && 0 <= k < |p.sections[s]| ==> p.sections[s][k].id < bound
  }

  /** An edit keeps every item id below the next fresh id, counting the one
      an add consumes. */
  lemma EditKeepsIdsBelow(p: Profile, section: string, action: string, data: ItemData, freshId: nat)
    requires IdsBelow(p, freshId)
    requires EditSection(p, section, action, data, freshId).Ok?
    ensures IdsBelow(EditSection(p, section, action, data, freshId).value, freshId + 1)
  {
    var q := EditSection(p, section, action, data, freshId).value;
    forall s, k | s in q.sections && 0 <= k < |q.sections[s]|
      ensures q.sections[s][k].id < freshId + 1
    {
      if s == section && action == "delete" {
        assert q.sections[s][k] in Pull(p.sections[s], data.id);
      }
    }
  }

  /** The fields of an upsert body; absent ones leave the document as is. */
  datatype ProfileBody = ProfileBody(
    userId: Option<Id>,
    skills: Option<seq<string>>,
    bio: Option<string>,
    city: Option<string>,
    availability: Option<string>,
    availabilityWindows: Option<seq<Window>>,
    hourlyRate: Option<real>,
    experience: Option<string>)

  /** `Object.assign(profile, body)` and `{ userId, ...body }` alike: a userId
      in the body wins over the one already there. */
  function Assign(p: Profile, body: ProfileBody): (r: Profile)
    ensures r.userId == body.userId.GetOr(p.userId)
    ensures r.sections == p.sections
    ensures body == ProfileBody(None, None, None, None, None, None, None, None) ==> r == p
  {
    p.(userId := body.userId.GetOr(p.userId),
       skills := body.skills.GetOr(p.skills),
       bio := if body.bio.Some? then body.bio else p.bio,
       city := if body.city.Some? then body.city else p.city,
       availability := body.availability.GetOr(p.availability),
       availabilityWindows := body.availabilityWindows.GetOr(p.availabilityWindows),
       hourlyRate := if body.hourlyRate.Some? then body.hourlyRate else p.hourlyRate,
       experience := if body.experience.Some? then body.experience else p.experience)
  }

  /** As Profile.js is written, a profile made by the upsert has none of the
      section arrays, so every add, update or delete on it fails. */
  lemma SchemaProfileCannotBeEdited(u: Id, body: ProfileBody, section: string, action: string, data: ItemData, freshId: nat)
    ensures EditSection(Assign(SchemaEmptyProfile(u), body), section, action, data, freshId).Err?
  {
  }

  /** With the four section arrays declared, the first add to any of them on
      a new profile succeeds and leaves exactly that item there. */
  lemma DeclaredSectionTakesAdd(u: Id, body: ProfileBody, section: string, data: ItemData, freshId: nat)
    requires section in SectionNames
    ensures var r := EditSection(Assign(EmptyProfile(u), body), section, "add", data, freshId);
            r.Ok? && r.value.sections[section] == [Item(freshId, data.fields)]
  {
  }

  /** The profiles collection. */
  class ProfileStore {
    var profiles: seq<Profile>
    var nextItemId: nat

    ghost predicate Valid()
      reads this
    {
      UniqueUsers(profiles)
      && (forall k :: 0 <= k < |profiles| ==> ValidProfile(profiles[k]) && IdsBelow(profiles[k], nextItemId))
    }

    constructor ()
      ensures Valid() && profiles == []
    {
      profiles := [];
      nextItemId := 0;
    }

    /** `manageProfileSection`: finds the caller's profile, edits one section
        of it and saves it. */
    method ManageProfileSection(caller: Id, section: string, action: string, data: ItemData)
      returns (r: Result<Profile>)
      requires Valid()
      modifies this
      ensures Valid()
      ensures IndexOfUser(old(profiles), caller).None? <==> r == Err(500, "Profile not found")
      ensures r.Err? ==> profiles == old(profiles)
      ensures IndexOfUser(old(profiles), caller).Some? ==>
                var k := IndexOfUser(old(profiles), caller).value;
                r == EditSection(old(profiles)[k], section, action, data, old(nextItemId))
                && (r.Ok? ==> profiles == old(profiles)[k := r.value])
    {
      var found := IndexOfUser(profiles, caller);
      if found.None? {
        return Err(500, "Profile not found");
      }
      var k := found.value;
      var p := profiles[k];
      r := EditSection(p, section, action, data, nextItemId);
      if r.Ok? {
        EditKeepsIdsBelow(p, section, action, data, nextItemId);
        profiles := profiles[k := r.value];
        forall j | 0 <= j < |profiles| ensures IdsBelow(profiles[j], nextItemId + 1) {
        }
        nextItemId := nextItemId + 1;
      }
    }

    /** `createOrUpdateProfile`: merges the body into the caller's profile, or
        creates one. The validators, which run before the write, and then the
        unique index reject a result that would break a field rule or give
        a user a second profile; every failure answers the same message. */
    method CreateOrUpdateProfile(caller: Id, body: ProfileBody) returns (r: Result<Profile>)
      requires Valid()
      modifies this
      ensures Valid() && nextItemId == old(nextItemId)
      ensures r.Err? ==> r == Err(500, "Error updating profile") && profiles == old(profiles)
      ensures r.Ok? ==> ValidProfile(r.value) && r.value.userId == body.userId.GetOr(caller)
      ensures r.Ok? && IndexOfUser(old(profiles), caller).Some? ==>
                var k := IndexOfUser(old(profiles), caller).value;
                r.value == Assign(old(profiles)[k], body) && profiles == old(profiles)[k := r.value]
      ensures r.Ok? && IndexOfUser(old(profiles), caller).None? ==>
                r.value == Assign(EmptyProfile(caller), body) && profiles == old(profiles) + [r.value]
      ensures body.userId.None? ==>
                (r.Ok? <==> ValidProfile(Assign(if IndexOfUser(old(profiles), caller).Some?
                                                then old(profiles)[IndexOfUser(old(profiles), caller).value]
                                                else EmptyProfile(caller), body)))
      ensures var candidate := Assign(if IndexOfUser(old(profiles), caller).Some?
                                      then old(profiles)[IndexOfUser(old(profiles), caller).value]
                                      else EmptyProfile(caller), body);
              r.Ok? <==> ValidProfile(candidate)
                         && (IndexOfUser(old(profiles), candidate.userId).None?
                             || IndexOfUser(old(profiles), candidate.userId) == IndexOfUser(old(profiles), caller))
    {
      var found := IndexOfUser(profiles, caller);
      var candidate := if found.Some? then Assign(profiles[found.value], body) else Assign(EmptyProfile(caller), body);
      var clash := IndexOfUser(profiles, candidate.userId);
      if !ValidProfile(candidate) {
        return Err(500, "Error updating profile");
      }
      if clash.Some? && (found.None? || clash.value != found.value) {
        return Err(500, "Error updating profile");
      }
      if found.Some? {
        profiles := profiles[found.value := candidate];
      } else {
        profiles := profiles + [candidate];
      }
      r := Ok(candidate);
    }
  }

  /** The query string of `searchTalent`; each parameter may be missing. */
  datatype TalentQuery = TalentQuery(skills: Option<string>, city: Option<string>,
                                     minRating: Option<string>, availability: Option<string>)

  const SearchLimit: nat := 50

  /** The find filter: any of the comma-separated skills, the exact city and
      the exact availability, each only when its parameter is non-empty. */
  predicate MatchesFilter(p: Profile, q: TalentQuery) {
    (Truthy(q.skills) ==> exists k :: 0 <= k < |p.skills| && p.skills[k] in Split(q.skills.value, ','))
    && (Truthy(q.city) ==> p.city == q.city)
    && (Truthy(q.availability) ==> p.availability == q.availability.value)
  }

  /** The populate match: the user exists and, when a minimum rating is
      given, rates at least that. `toNumber` stands for `Number`, with `None`
      for NaN; a NaN minimum never gets this far (see `RatingCastFails`). */
  predicate UserMatches(ratings: map<Id, real>, userId: Id, minRating: Option<string>, toNumber: string -> Option<real>) {
    userId in ratings
    && (Truthy(minRating) ==> toNumber(minRating.value).Some? && ratings[userId] >= toNumber(minRating.value).value)
  }

  /** `Number(minRating)` is NaN, and casting the populate match against
      the numeric `ratingAvg` path throws, so the request answers 500. */
  predicate RatingCastFails(q: TalentQuery, toNumber: string -> Option<real>) {
    Truthy(q.minRating) && toNumber(q.minRating.value).None?
  }

  function ByFilter(q: TalentQuery): Profile -> bool {
    (p: Profile) => MatchesFilter(p, q)
  }

  /** `.limit(n)`. */
  function Take<T(==)>(s: seq<T>, n: nat): (r: seq<T>)
    ensures |r| == if |s| <= n then |s| else n
    ensures r <= s
  {
    if |s| <= n then s else s[..n]
  }

  /** `searchTalent`: the first fifty profiles that match the filter, less
      those whose user the populate step dropped; 500 when the minimum
      rating is not a number. `ratings` maps each user id to the user's
      rating. */
  function SearchTalent(stored: seq<Profile>, ratings: map<Id, real>, q: TalentQuery, toNumber: string -> Option<real>)
    : (r: Result<seq<Profile>>)
    ensures r.Err? <==> RatingCastFails(q, toNumber)
    ensures r.Err? ==> r == Err(500, "Error searching talent")
    ensures r.Ok? ==> |r.value| <= SearchLimit
    ensures r.Ok? ==> forall p :: p in r.value ==> p in stored && MatchesFilter(p, q) && UserMatches(ratings, p.userId, q.minRating, toNumber)
    ensures r.Ok? ==> IsSubsequence(r.value, stored)
    ensures r.Ok? && |Filter(stored, ByFilter(q))| <= SearchLimit ==>
              forall p :: p in stored && MatchesFilter(p, q) && UserMatches(ratings, p.userId, q.minRating, toNumber)
                          ==> p in r.value
  {
    if RatingCastFails(q, toNumber) then Err(500, "Error searching talent") else
    var matched := Filter(stored, ByFilter(q));
    var limited := Take(matched, SearchLimit);
    var r := Filter(limited, (p: Profile) => UserMatches(ratings, p.userId, q.minRating, toNumber));
    FilterIsSubsequence(stored, ByFilter(q));
    FilterIsSubsequence(limited, (p: Profile) => UserMatches(ratings, p.userId, q.minRating, toNumber));
    PrefixIsSubsequence(limited, matched);
    SubsequenceTrans(r, limited, matched);
    SubsequenceTrans(r, matched, stored);
    assert forall p :: p in limited ==> p in matched;
    Ok(r)
  }
}

=== FILE: seqs.dfy ===
/** Sequence helpers standing for Array.prototype.filter and friends. */
module Seqs {

  /** `s.filter(p)`. */
  function Filter<T(!new)>(s: seq<T>, p: T -> bool): (r: seq<T>)
    ensures |r| <= |s|
    ensures forall x :: x in r <==> x in s && p(x)
    ensures forall i :: 0 <= i < |r| ==> p(r[i])
  {
    if s == [] then []
    else if p(s[0]) then [s[0]] + Filter(s[1..], p)
    else Filter(s[1..], p)
  }

  /** a can be obtained from b by deleting elements; order is kept. */
  predicate IsSubsequence<T(==)>(a: seq<T>, b: seq<T>)
    decreases |b|
  {
    a == [] || (b != [] && if a[0] == b[0] then IsSubsequence(a[1..], b[1..]) else IsSubsequence(a, b[1..]))
  }

  lemma {:induction false} SubsequenceSkip<T>(a: seq<T>, b: seq<T>, x: T)
    requires IsSubsequence(a, b)
    ensures IsSubsequence(a, [x] + b)
    decreases |b|, 1
  {
    if a != [] && a[0] != x {
      assert ([x] + b)[1..] == b;
    } else if a != [] {
      assert ([x] + b)[1..] == b;
      SubsequenceTail(a, b);
    }
  }

  lemma {:induction false} SubsequenceTail<T>(a: seq<T>, b: seq<T>)
    requires a != [] && IsSubsequence(a, b)
    ensures IsSubsequence(a[1..], b)
    decreases |b|, 0
  {
    if a[0] == b[0] {
      SubsequenceSkip(a[1..], b[1..], b[0]);
      assert [b[0]] + b[1..] == b;
    } else {
      SubsequenceTail(a, b[1..]);
      SubsequenceSkip(a[1..], b[1..], b[0]);
      assert [b[0]] + b[1..] == b;
    }
  }

  /** Order-preserving deletion composes. */
  lemma {:induction false} SubsequenceTrans<T>(a: seq<T>, b: seq<T>, c: seq<T>)
    requires IsSubsequence(a, b) && IsSubsequence(b, c)
    ensures IsSubsequence(a, c)
    decreases |c|
  {
    if a != [] {
      if b[0] == c[0] {
        if a[0] == b[0] {
          SubsequenceTrans(a[1..], b[1..], c[1..]);
        } else {
          SubsequenceTrans(a, b[1..], c[1..]);
        }
      } else {
        SubsequenceTrans(a, b, c[1..]);
        if a[0] == c[0] {
          SubsequenceTail(a, c[1..]);
        }
      }
    }
  }

  /** A prefix is a subsequence. */
  lemma {:induction false} PrefixIsSubsequence<T>(a: seq<T>, b: seq<T>)
    requires a <= b
    ensures IsSubsequence(a, b)
  {
    if a != [] {
      PrefixIsSubsequence(a[1..], b[1..]);
    }
  }

  /** A filter keeps the elements it keeps in their original order. */
  lemma {:induction false} FilterIsSubsequence<T(!new)>(s: seq<T>, p: T -> bool)
    ensures IsSubsequence(Filter(s, p), s)
  {
    if s != [] {
      FilterIsSubsequence(s[1..], p);
      if !p(s[0]) {
        SubsequenceSkip(Filter(s[1..], p), s[1..], s[0]);
        assert [s[0]] + s[1..] == s;
      }
    }
  }

  /** Two filters in a row are one filter by the conjunction. */
  lemma {:induction false} FilterFilter<T(!new)>(s: seq<T>, p: T -> bool, q: T -> bool, pq: T -> bool)
    requires forall x :: pq(x) == (p(x) && q(x))
    ensures Filter(Filter(s, p), q) == Filter(s, pq)
  {
    if s != [] {
      FilterFilter(s[1..], p, q, pq);
    }
  }

  /** A filter whose predicate holds on every element keeps the sequence. */
  lemma {:induction false} FilterAll<T(!new)>(s: seq<T>, p: T -> bool)
    requires forall x :: x in s ==> p(x)
    ensures Filter(s, p) == s
  {
    if s != [] {
      FilterAll(s[1..], p);
    }
  }

  /** Filtering a sequence with one more element at its end. */
  lemma {:induction false} FilterSnoc<T(!new)>(s: seq<T>, x: T, p: T -> bool)
    ensures Filter(s + [x], p) == Filter(s, p) + (if p(x) then [x] else [])
  {
    if s == [] {
      assert [x][1..] == [];
    } else {
      assert (s + [x])[0] == s[0];
      assert (s + [x])[1..] == s[1..] + [x];
      FilterSnoc(s[1..], x, p);
    }
  }

  /** `s.map(f)`. */
  function Map<T, U>(s: seq<T>, f: T -> U): (r: seq<U>)
    ensures |r| == |s|
    ensures forall i :: 0 <= i < |s| ==> r[i] == f(s[i])
  {
    seq(|s|, i requires 0 <= i < |s| => f(s[i]))
  }

  /** Mapping a concatenation maps each part. */
  lemma MapAppend<T, U>(a: seq<T>, b: seq<T>, f: T -> U)
    ensures Map(a + b, f) == Map(a, f) + Map(b, f)
  {
  }
}

=== FILE: sorting.dfy ===
/** A stable sort by an integer key, standing for Array.prototype.sort with a
    numeric comparator (stable since ECMAScript 2019) and for a store query
    sorted on one field. */
module Sorting {

  predicate SortedBy<T>(s: seq<T>, key: T -> int) {
    forall i, j :: 0 <= i < j < |s| ==> key(s[i]) <= key(s[j])
  }

  /** Puts x in front of the first element whose key is not smaller. */
  function Insert<T>(x: T, t: seq<T>, key: T -> int): (r: seq<T>)
    ensures |r| == |t| + 1
    ensures multiset(r) == multiset(t) + multiset{x}
  {
    if t == [] then [x]
    else if key(x) <= key(t[0]) then [x] + t
    else
      assert t == [t[0]] + t[1..];
      [t[0]] + Insert(x, t[1..], key)
  }

  lemma {:induction false} InsertSorted<T>(x: T, t: seq<T>, key: T -> int)
    requires SortedBy(t, key)
    ensures SortedBy(Insert(x, t, key), key)
  {
    if t != [] && key(x) > key(t[0]) {
      var rest := Insert(x, t[1..], key);
      InsertSorted(x, t[1..], key);
      forall i | 0 <= i < |rest| ensures key(t[0]) <= key(rest[i]) {
        assert rest[i] in multiset(rest);
        assert rest[i] == x || rest[i] in multiset(t[1..]);
      }
      assert Insert(x, t, key) == [t[0]] + rest;
    }
  }

  /** Insertion sort: ascending by key, a permutation of the input. */
  function SortBy<T>(s: seq<T>, key: T -> int): (r: seq<T>)
    ensures |r| == |s|
    ensures multiset(r) == multiset(s)
    ensures SortedBy(r, key)
  {
    if s == [] then []
    else
      var t := SortBy(s[1..], key);
      SortByStep(s, t, key);
      Insert(s[0], t, key)
  }

  /** Inserting the head into the sorted tail sorts the whole sequence. */
  lemma SortByStep<T>(s: seq<T>, t: seq<T>, key: T -> int)
    requires s != [] && multiset(t) == multiset(s[1..]) && SortedBy(t, key)
    ensures multiset(Insert(s[0], t, key)) == multiset(s)
    ensures SortedBy(Insert(s[0], t, key), key)
  {
    InsertSorted(s[0], t, key);
    assert s == [s[0]] + s[1..];
  }

  /** The elements of s whose key is k, in their order in s. */
  function WithKey<T>(s: seq<T>, key: T -> int, k: int): (r: seq<T>)
    ensures |r| <= |s|
  {
    if s == [] then []
    else if key(s[0]) == k then [s[0]] + WithKey(s[1..], key, k)
    else WithKey(s[1..], key, k)
  }

  lemma {:induction false} InsertWithKey<T>(x: T, t: seq<T>, key: T -> int, k: int)
    ensures WithKey(Insert(x, t, key), key, k) ==
            if key(x) == k then [x] + WithKey(t, key, k) else WithKey(t, key, k)
  {
    if t != [] && key(x) > key(t[0]) {
      InsertWithKey(x, t[1..], key, k);
      assert Insert(x, t, key)[1..] == Insert(x, t[1..], key);
    } else if t != [] {
      assert (Insert(x, t, key))[1..] == t;
    }
  }

  /** Stability: elements with equal keys keep their relative input order. */
  lemma {:induction false} SortStable<T>(s: seq<T>, key: T -> int, k: int)
    ensures WithKey(SortBy(s, key), key, k) == WithKey(s, key, k)
  {
    if s != [] {
      SortStable(s[1..], key, k);
      InsertWithKey(s[0], SortBy(s[1..], key), key, k);
    }
  }
}

=== FILE: text.dfy ===
/** String helpers standing for the JavaScript string methods the system uses:
    toLowerCase, includes, trim, split and join. */
module Text {

  /** toLowerCase on one character; only the ASCII letters are folded. */
  function LowerChar(c: char): char {
    if 'A' <= c <= 'Z' then (c as int + 32) as char else c
  }

  function Lower(s: string): (r: string)
    ensures |r| == |s|
    ensures forall i :: 0 <= i < |s| ==> r[i] == LowerChar(s[i])
  {
    seq(|s|, i requires 0 <= i < |s| => LowerChar(s[i]))
  }

  /** `hay.includes(needle)`: needle occurs in hay at some position. */
  predicate Contains(hay: string, needle: string)
    decreases |hay|
  {
    needle <= hay || (hay != [] && Contains(hay[1..], needle))
  }

  /** needle occurs in hay starting at position i. */
  predicate SliceAt(hay: string, needle: string, i: int) {
    0 <= i && i + |needle| <= |hay| && hay[i..i + |needle|] == needle
  }

  /** Contains holds exactly when needle is a contiguous slice of hay. */
  lemma {:induction false} ContainsIsSlice(hay: string, needle: string)
    ensures Contains(hay, needle) <==> exists i :: SliceAt(hay, needle, i)
    decreases |hay|
  {
    if needle <= hay {
      assert SliceAt(hay, needle, 0);
    } else if hay == [] {
    } else {
      ContainsIsSlice(hay[1..], needle);
      if exists i :: SliceAt(hay, needle, i) {
        var i :| SliceAt(hay, needle, i);
        if i != 0 {
          assert SliceAt(hay[1..], needle, i - 1);
        }
      }
      if Contains(hay[1..], needle) {
        var i :| SliceAt(hay[1..], needle, i);
        assert SliceAt(hay, needle, i + 1);
      }
    }
  }

  /** Every string includes the empty string and itself. */
  lemma ContainsTrivial(s: string)
    ensures Contains(s, "") && Contains(s, s)
  {
  }

  /** The characters `trim` removes (the ASCII ones). */
  predicate IsSpace(c: char) {
    c == ' ' || c == '\t' || c == '\n' || c == '\r' || c == '\U{000B}' || c == '\U{000C}'
  }

  /** `!s || !s.trim()`: absent, empty or whitespace only. */
  predicate IsBlank(s: string) {
    forall i :: 0 <= i < |s| ==> IsSpace(s[i])
  }

  /** The index of the first non-space character at or after `from`, or |s|. */
  function SkipSpaces(s: string, from: nat): (k: nat)
    requires from <= |s|
    ensures from <= k <= |s|
    ensures forall i :: from <= i < k ==> IsSpace(s[i])
    ensures k < |s| ==> !IsSpace(s[k])
    decreases |s| - from
  {
    if from == |s| || !IsSpace(s[from]) then from else SkipSpaces(s, from + 1)
  }

  /** The end of s[lo..hi] once its trailing white space is dropped. */
  function SkipSpacesBack(s: string, lo: nat, hi: nat): (k: nat)
    requires lo <= hi <= |s|
    ensures lo <= k <= hi
    ensures forall i :: k <= i < hi ==> IsSpace(s[i])
    ensures k > lo ==> !IsSpace(s[k - 1])
    decreases hi
  {
    if hi == lo || !IsSpace(s[hi - 1]) then hi else SkipSpacesBack(s, lo, hi - 1)
  }

  /** `s.trim()`: s with its leading and trailing white space dropped: a
      contiguous slice of s, everything before and after it white space, and
      no white space at either of its ends; it is empty exactly when s is
      blank. */
  function Trim(s: string): (r: string)
    ensures exists i :: SliceAt(s, r, i) && IsBlank(s[..i]) && IsBlank(s[i + |r|..])
    ensures r == [] || (!IsSpace(r[0]) && !IsSpace(r[|r| - 1]))
    ensures r == [] <==> IsBlank(s)
  {
    var lo := SkipSpaces(s, 0);
    var hi := SkipSpacesBack(s, lo, |s|);
    assert SliceAt(s, s[lo..hi], lo);
    assert IsBlank(s[..lo]) && IsBlank(s[hi..]);
    s[lo..hi]
  }

  /** `s.split(sep)`: the pieces between the separators, at least one. */
  function Split(s: string, sep: char): (r: seq<string>)
    ensures |r| >= 1
    ensures forall k :: 0 <= k < |r| ==> sep !in r[k]
    decreases |s|
  {
    if s == [] then [""]
    else if s[0] == sep then [""] + Split(s[1..], sep)
    else
      var t := Split(s[1..], sep);
      [[s[0]] + t[0]] + t[1..]
  }

  /** `parts.join(sep)`. */
  function Join(parts: seq<string>, sep: string): string
    decreases |parts|
  {
    if parts == [] then ""
    else if |parts| == 1 then parts[0]
    else parts[0] + sep + Join(parts[1..], sep)
  }

  /** Joining the pieces of a split with the separator gives back the string. */
  lemma {:induction false} JoinSplit(s: string, sep: char)
    ensures Join(Split(s, sep), [sep]) == s
    decreases |s|
  {
    if s == [] {
    } else if s[0] == sep {
      JoinSplit(s[1..], sep);
      assert s == [sep] + s[1..];
    } else {
      var t := Split(s[1..], sep);
      JoinSplit(s[1..], sep);
      if |t| == 1 {
        assert s == [s[0]] + t[0];
      } else {
        assert Split(s, sep)[1..] == t[1..];
        assert s == [s[0]] + s[1..];
      }
    }
  }

  /** `s.substring(0, n)`. */
  function Prefix(s: string, n: nat): (r: string)
    ensures r <= s && |r| == if |s| < n then |s| else n
  {
    if |s| < n then s else s[..n]
  }
}

=== FILE: workerdashboard.dfy ===
/** The worker dashboard's job search: a chain of filters over the jobs
    fetched once, and the reset that restores them. */
module WorkerDashboard {
  import opened Wrappers
  import opened Text
  import opened Seqs

  /** A job as the dashboard receives it; optional chaining reads a missing
      field as undefined. */
  datatype Job = Job(
    title: Option<string>,
    description: Option<string>,
    city: Option<string>,
    payPerPerson: Option<real>,
    status: string,
    requiredSkills: Option<seq<string>>)

  /** The search form; the pay bounds are the typed strings. */
  datatype Filters = Filters(query: string, location: string, payMin: string, payMax: string,
                             status: string, skills: seq<string>)

  /** The values the reset leaves in the form. */
  const NeutralFilters: Filters := Filters("", "", "", "", "all", [])

  /** `field?.toLowerCase().includes(needle.toLowerCase())`. */
  predicate FieldContains(field: Option<string>, needle: string) {
    field.Some? && Contains(Lower(field.value), Lower(needle))
  }

  predicate QueryMatches(j: Job, query: string) {
    FieldContains(j.title, query) || FieldContains(j.description, query)
  }

  /** A comparison with NaN, or with a missing pay, is false. */
  predicate PayAtLeast(j: Job, bound: Option<real>) {
    j.payPerPerson.Some? && bound.Some? && j.payPerPerson.value >= bound.value
  }

  predicate PayAtMost(j: Job, bound: Option<real>) {
    j.payPerPerson.Some? && bound.Some? && j.payPerPerson.value <= bound.value
  }

  /** Some filter skill is a case-insensitive substring of some required
      skill. */
  predicate SkillsMatch(j: Job, skills: seq<string>) {
    exists s, k :: s in skills && j.requiredSkills.Some? && 0 <= k < |j.requiredSkills.value|
                   && Contains(Lower(j.requiredSkills.value[k]), Lower(s))
  }

  /** Everything the search demands of a job: each filter that is set. */
  predicate Keep(f: Filters, parseFloat: string -> Option<real>, j: Job) {
    (f.query != "" ==> QueryMatches(j, f.query))
    && (f.location != "" ==> FieldContains(j.city, f.location))
    && (f.payMin != "" ==> PayAtLeast(j, parseFloat(f.payMin)))
    && (f.payMax != "" ==> PayAtMost(j, parseFloat(f.payMax)))
    && (f.status != "all" ==> j.status == f.status)
    && (|f.skills| > 0 ==> SkillsMatch(j, f.skills))
  }

  /** One step of the chain: filter when the filter is set. */
  function Step(s: seq<Job>, on: bool, p: Job -> bool): seq<Job> {
    if on then Filter(s, p) else s
  }

  /** The predicates of the six filters. */
  function ByQuery(f: Filters): Job -> bool {
    (j: Job) => QueryMatches(j, f.query)
  }

  function ByLocation(f: Filters): Job -> bool {
    (j: Job) => FieldContains(j.city, f.location)
  }

  function ByPayMin(f: Filters, parseFloat: string -> Option<real>): Job -> bool {
    (j: Job) => PayAtLeast(j, parseFloat(f.payMin))
  }

  function ByPayMax(f: Filters, parseFloat: string -> Option<real>): Job -> bool {
    (j: Job) => PayAtMost(j, parseFloat(f.payMax))
  }

  function ByStatus(f: Filters): Job -> bool {
    (j: Job) => j.status == f.status
  }

  function BySkills(f: Filters): Job -> bool {
    (j: Job) => SkillsMatch(j, f.skills)
  }

  /** `handleSearch`: the list rebound once per filter that is set. */
  function HandleSearch(jobs: seq<Job>, f: Filters, parseFloat: string -> Option<real>): seq<Job> {
    var byQuery := Step(jobs, f.query != "", ByQuery(f));
    var byLocation := Step(byQuery, f.location != "", ByLocation(f));
    var byPayMin := Step(byLocation, f.payMin != "", ByPayMin(f, parseFloat));
    var byPayMax := Step(byPayMin, f.payMax != "", ByPayMax(f, parseFloat));
    var byStatus := Step(byPayMax, f.status != "all", ByStatus(f));
    Step(byStatus, |f.skills| > 0, BySkills(f))
  }

  lemma {:induction false} FilterSame(s: seq<Job>, p: Job -> bool, q: Job -> bool)
    requires forall j :: p(j) == q(j)
    ensures Filter(s, p) == Filter(s, q)
  {
    if s != [] {
      FilterSame(s[1..], p, q);
    }
  }

  /** A step after a filter is a filter by the conjunction of the first
      predicate and "off, or the step's predicate holds". */
  lemma StepAfterFilter(s: seq<Job>, acc: Job -> bool, on: bool, p: Job -> bool, next: Job -> bool)
    requires forall j :: next(j) == (acc(j) && (!on || p(j)))
    ensures Step(Filter(s, acc), on, p) == Filter(s, next)
  {
    if on {
      FilterFilter(s, acc, p, next);
    } else {
      FilterSame(s, acc, next);
    }
  }

  /** What the first two, four and five steps demand of a job. */
  predicate Keep2(f: Filters, j: Job) {
    (f.query != "" ==> QueryMatches(j, f.query))
    && (f.location != "" ==> FieldContains(j.city, f.location))
  }

  predicate Keep4(f: Filters, parseFloat: string -> Option<real>, j: Job) {
    Keep2(f, j)
    && (f.payMin != "" ==> PayAtLeast(j, parseFloat(f.payMin)))
    && (f.payMax != "" ==> PayAtMost(j, parseFloat(f.payMax)))
  }

  lemma FirstSteps(jobs: seq<Job>, f: Filters, parseFloat: string -> Option<real>)
    ensures Step(Step(jobs, f.query != "", ByQuery(f)), f.location != "", ByLocation(f))
            == Filter(jobs, (j: Job) => Keep2(f, j))
  {
    FilterAll(jobs, (j: Job) => true);
    StepAfterFilter(jobs, (j: Job) => true, f.query != "", ByQuery(f), (j: Job) => f.query != "" ==> QueryMatches(j, f.query));
    StepAfterFilter(jobs, (j: Job) => f.query != "" ==> QueryMatches(j, f.query), f.location != "", ByLocation(f),
                    (j: Job) => Keep2(f, j));
  }

  lemma MiddleSteps(jobs: seq<Job>, f: Filters, parseFloat: string -> Option<real>)
    ensures Step(Step(Filter(jobs, (j: Job) => Keep2(f, j)), f.payMin != "", ByPayMin(f, parseFloat)),
                 f.payMax != "", ByPayMax(f, parseFloat))
            == Filter(jobs, (j: Job) => Keep4(f, parseFloat, j))
  {
    var k3 := (j: Job) => Keep2(f, j) && (f.payMin != "" ==> PayAtLeast(j, parseFloat(f.payMin)));
    StepAfterFilter(jobs, (j: Job) => Keep2(f, j), f.payMin != "", ByPayMin(f, parseFloat), k3);
    StepAfterFilter(jobs, k3, f.payMax != "", ByPayMax(f, parseFloat), (j: Job) => Keep4(f, parseFloat, j));
  }

  lemma LastSteps(jobs: seq<Job>, f: Filters, parseFloat: string -> Option<real>)
    ensures Step(Step(Filter(jobs, (j: Job) => Keep4(f, parseFloat, j)), f.status != "all", ByStatus(f)),
                 |f.skills| > 0, BySkills(f))
            == Filter(jobs, (j: Job) => Keep(f, parseFloat, j))
  {
    var k5 := (j: Job) => Keep4(f, parseFloat, j) && (f.status != "all" ==> j.status == f.status);
    StepAfterFilter(jobs, (j: Job) => Keep4(f, parseFloat, j), f.status != "all", ByStatus(f), k5);
    StepAfterFilter(jobs, k5, |f.skills| > 0, BySkills(f), (j: Job) => Keep(f, parseFloat, j));
  }

  /** The chain of filters is one filter by the conjunction of the set
      filters. */
  lemma SearchIsOneFilter(jobs: seq<Job>, f: Filters, parseFloat: string -> Option<real>)
    ensures HandleSearch(jobs, f, parseFloat) == Filter(jobs, (j: Job) => Keep(f, parseFloat, j))
  {
    FirstSteps(jobs, f, parseFloat);
    MiddleSteps(jobs, f, parseFloat);
    LastSteps(jobs, f, parseFloat);
  }

  /** The result keeps exactly the jobs every set filter accepts, in their
      original order. */
  lemma SearchResult(jobs: seq<Job>, f: Filters, parseFloat: string -> Option<real>)
    ensures forall j :: j in HandleSearch(jobs, f, parseFloat) <==> j in jobs && Keep(f, parseFloat, j)
    ensures IsSubsequence(HandleSearch(jobs, f, parseFloat), jobs)
  {
    SearchIsOneFilter(jobs, f, parseFloat);
    FilterIsSubsequence(jobs, (j: Job) => Keep(f, parseFloat, j));
  }

  /** `handleReset`: the full list again. */
  function HandleReset(jobs: seq<Job>): seq<Job> {
    jobs
  }

  /** The reset shows what a search with no filter set shows. */
  lemma ResetIsNeutralSearch(jobs: seq<Job>, parseFloat: string -> Option<real>)
    ensures HandleReset(jobs) == HandleSearch(jobs, NeutralFilters, parseFloat)
  {
    SearchIsOneFilter(jobs, NeutralFilters, parseFloat);
    FilterAll(jobs, (j: Job) => Keep(NeutralFilters, parseFloat, j));
  }
}

=== FILE: wrappers.dfy ===
/** Option values for the fields a stored document may lack, and results that
    carry the HTTP status a controller answers with when it fails. */
module Wrappers {

  datatype Option<+T> = None | Some(value: T) {
    function GetOr(default: T): T {
      match this
      case Some(v) => v
      case None => default
    }
  }

  /** A controller outcome: a value, or the status code and message of the
      error response. */
  datatype Result<+T> = Ok(value: T) | Err(code: int, message: string)

  /** JavaScript truthiness of an optional string: present and not empty. */
  predicate Truthy(s: Option<string>) {
    s.Some? && s.value != ""
  }
}
